=== FILE: README.md ===
# A Dafny model of the Swift `Git` wrapper's translation layer

The `Git` package is a thin Swift layer over libgit2. Every algorithm with real
content (object lookup, graph search, index reading, revision walking) is a
libgit2 call. What the Swift code decides for itself is how it translates:
- C constants and bit words to Swift enums and booleans, and back;
- native return codes to returns, throws, `Bool`s and nils;
- native records to values with equality, ordering and hashing.

This project models that layer and proves what it promises.

- `native.dfy` (`Native`): fixed-width integers as `newtype`s, `Option`, C
  strings as byte sequences, and `StringCodec`. `StringCodec` stands for
  `String(validatingUTF8:)` and `withCString`. It is a pair of functions
  given as a parameter, and `RoundTrips(s)` says that `s` survives the trip.
- `errors.dfy` (`Errors`): `Error(code:)`, `attempt(throwing:)` and
  `result(of:)`.
  - A native call is a state transition that also yields an `Int32` code.
  - `giterr_last()` is a reading of that state.
  - `wrap { … }` is called everywhere but defined nowhere in the source; it is
    modelled as `attempt`.
- `checkout.dfy` (`Checkout`): `Repository.Checkout.Configuration`.
  - The `checkout_strategy` word is the set of its bit positions. Each libgit2
    flag has a bit position, and any injective assignment of positions is
    admissible.
  - `LibGit2` is the assignment of libgit2's checkout.h, where `NONE` is the
    empty set.
  - Every getter is read through one record, `View`. Each setter's contract
    says which field of that record changes, and that no other field or bit
    changes.
- `remote.dfy` (`Remote`): `Remote.Fetch.Configuration`, the
  `Optional<TagFollowing>` codec and the string-array conversion used by
  `customHeaders`.
- `clone.dfy` (`Clone`): the `Clone.Local` codec and `Clone.Configuration`.
- `objects.dfy` (`Objects`): `Object.type(of:)`, the class type tags, the
  constructor's assertion, `Object` and `Object.ID` equality and hashing, and
  the `ID` initialisers.
- `commits.dfy` (`Commits`): `isDescendent(of:)`, `tree` and the `parents`
  filter.
- `index.dfy` (`Indexes`): both `Index` sources.
  - `Repository/Index.swift` contributes the `Stage` codec and the collection
    subscripts.
  - `Index.swift` contributes the `Entries` cursor and `entries`. The cursor
    is its own sequence, so `entries` can be traversed only once.
  - Both declare `Entry` `==`, `<` and `hash` and `reload(force:)`, and their
    copies agree.
- `heads.dfy` (`Heads`): both copies of `Repository.Head`, and the `head`,
  `branch(named:)` and `index` members of `Repository`.
- `signatures.dfy` (`Signatures`): the name and email (cut at their first
  NUL, then trimmed) and the minute offset `Signature.init` stores,
  `timeZone`, `==` and `hash(into:)`.
- `attributes.dfy` (`Attributes`): the `Attributes` subscript and the
  literal initialisers of `Attributes.Value`.

The values of libgit2's C constants are not part of this source. Each group of
constants is therefore a record with a `Valid()` predicate (the values are
distinct, or the bit positions injective). The lemmas are proved for every
valid record. Each group also carries the libgit2 values as one admissible
instance, with a lemma (`LibGit2Valid`) that they form a valid record.

Every libgit2 call's outcome is an input:
- return codes, looked-up objects and iterator snapshots;
- the on-disk index file, and the kind and text of an attribute.

Where the source has a `precondition`, an `assert`, a force-unwrap or an
`Int32(...)` conversion that traps, the model states it as a `requires`.

## Model

| member | source | states |
|---|---|---|
| Errors.ErrorFor | Sources/Git/Error.swift:22-25 | The error's code is the `Int32` code widened to `Int`: it fits in 32 bits and reads back as the same code. The message is the one given, by default the library's last. |
| Errors.ErrorForInjective | Sources/Git/Error.swift:22-25 | Two errors are equal iff their codes and messages are, so no two codes give the same error. |
| Errors.Attempt | Sources/Git/Error.swift:30-36 | The call runs once from the given state. `attempt` returns iff the code is 0, and otherwise throws an error with that code widened to `Int` and the message current after the call. |
| Errors.Wrap | Sources/Git/Error.swift:30-36 | `wrap { call }` for a call that answers `code` and does nothing else: it returns iff the code is 0, and otherwise throws `Error(code:)` with the last message. |
| Errors.Then | Sources/Git/Error.swift:30-36 | After `try wrap { … }`, the member's value comes back iff the call returned; otherwise the thrown error propagates unchanged. |
| Errors.ResultOf | Sources/Git/Error.swift:38-45 | `result(of:)` never throws: `.success` iff the code is 0, otherwise `.failure` with that code. |
| Errors.ResultOfMatchesAttempt | Sources/Git/Error.swift:38-45 | `result(of:)` succeeds exactly when `attempt` returns, and its failure carries the very error `attempt` throws. |
| Errors.AttemptCallsOnce | Sources/Git/Error.swift:32 | With a call that counts its own invocations, `attempt` raises the count by exactly one, whatever code the call returns. |
| Checkout.DecodeStrategy | Sources/Git/Repository/Checkout.swift:226-234 | `.force` iff FORCE is set; `.safe` iff SAFE is set and FORCE is not; nil iff neither is set. |
| Checkout.EncodeStrategy | Sources/Git/Repository/Checkout.swift:236-245 | The raw value of a strategy is its single bit, FORCE or SAFE, and nil is stored as NONE, the word with no bits. |
| Checkout.StrategyRoundTrip | Sources/Git/Repository/Checkout.swift:225-246 | Decoding the raw value of any `Strategy?` gives it back, with nil encoded as NONE. |
| Checkout.DecodeResolution | Sources/Git/Repository/Checkout.swift:249-259 | `.skipUnmerged` iff SKIP_UNMERGED is set; `.useOurs` iff USE_OURS is set and SKIP_UNMERGED is not; `.useTheirs` iff USE_THEIRS is the only one of the three set; nil iff none is set. |
| Checkout.EncodeResolution | Sources/Git/Repository/Checkout.swift:261-272 | The raw value of a resolution is its single bit, SKIP_UNMERGED, USE_OURS or USE_THEIRS, and nil is stored as NONE. |
| Checkout.ResolutionRoundTrip | Sources/Git/Repository/Checkout.swift:248-273 | Decoding the raw value of any `ConflictResolution?` gives it back. |
| Checkout.Compose | Sources/Git/Repository/Checkout.swift:75-83 | The word the `strategy` and `conflictResolution` setters rebuild holds only bits of modelled flags, so any other bit is dropped. |
| Checkout.HasCompose | Sources/Git/Repository/Checkout.swift:76-83 | In the rebuilt word, each flag's bit is set exactly when its getter value asks for it: set for a true positive flag, clear for a true DONT_/NO_ flag. |
| Checkout.ComposeHasCodes | Sources/Git/Repository/Checkout.swift:75 | The rebuilt word contains the raw values of the strategy and of the conflict resolution. |
| Checkout.DecodeComposeStrategy | Sources/Git/Repository/Checkout.swift:71 | The `strategy` getter reads back, from the rebuilt word, the strategy it was built with. |
| Checkout.DecodeComposeResolution | Sources/Git/Repository/Checkout.swift:100 | The `conflictResolution` getter reads back, from the rebuilt word, the resolution it was built with. |
| Checkout.ReadCompose | Sources/Git/Repository/Checkout.swift:69-114 | Every getter reads back exactly the values the rebuilt word was composed from. |
| Checkout.SetStrategy | Sources/Git/Repository/Checkout.swift:74-84 | After assigning `strategy`, it reads the assigned value, every other getter is unchanged, the word is exactly the one the getters' values compose (so FORCE leaves no SAFE bit behind), bits outside the modelled flags are gone, and the other option fields are untouched. |
| Checkout.SetConflictResolution | Sources/Git/Repository/Checkout.swift:103-113 | After assigning `conflictResolution`, it reads the assigned value, every other getter is unchanged, the word is exactly the one the getters' values compose (so SKIP_UNMERGED leaves no USE_OURS bit behind), unmodelled bits are gone, and the other fields are untouched. |
| Checkout.Assign | Sources/Git/Repository/Checkout.swift:121-127 | Setting or clearing one flag's bit leaves the flag as asked and every other bit as it was. |
| Checkout.SetRemoveUntracked | Sources/Git/Repository/Checkout.swift:117-129 | Set-then-get returns the value; every other getter, every other bit of the word and every other field is unchanged. |
| Checkout.SetRemoveIgnored | Sources/Git/Repository/Checkout.swift:132-144 | Set-then-get returns the value; nothing else changes. |
| Checkout.SetUpdateOnly | Sources/Git/Repository/Checkout.swift:147-159 | Set-then-get returns the value; nothing else changes. |
| Checkout.SetUpdateIndex | Sources/Git/Repository/Checkout.swift:162-174 | The getter is true iff DONT_UPDATE_INDEX is clear; set-then-get returns the value; nothing else changes. |
| Checkout.SetRefreshIndex | Sources/Git/Repository/Checkout.swift:178-190 | The getter is true iff NO_REFRESH is clear; set-then-get returns the value; nothing else changes. |
| Checkout.SetOverwriteIgnored | Sources/Git/Repository/Checkout.swift:193-205 | The getter is true iff DONT_OVERWRITE_IGNORED is clear; set-then-get returns the value; nothing else changes. |
| Checkout.SetAllowConflictsAsWritten | Sources/Git/Repository/Checkout.swift:93-95 | As written, the setter ORs the bit in, so afterwards `allowConflicts` reads true whatever was assigned. No other getter, no other bit of the word and no other field changes. |
| Checkout.AllowConflictsCannotBeCleared | Sources/Git/Repository/Checkout.swift:88-96 | Assigning false to `allowConflicts` leaves it reading true. |
| Checkout.SetAllowConflicts | Sources/Git/Repository/Checkout.swift:88-96 | Corrected setter: set-then-get returns the value; nothing else changes. |
| Checkout.SetRemoveExistingAsWritten | Sources/Git/Repository/Checkout.swift:213-219 | As written, the setter stores the negation of the value in ALLOW_CONFLICTS. Every other getter, `removeExisting` included, every other bit and every other field is unchanged. |
| Checkout.RemoveExistingSetterIgnoresValue | Sources/Git/Repository/Checkout.swift:208-220 | From a word with DONT_REMOVE_EXISTING set, assigning true to `removeExisting` leaves it reading false and turns `allowConflicts` off. |
| Checkout.SetRemoveExisting | Sources/Git/Repository/Checkout.swift:208-220 | Corrected setter: the getter is true iff DONT_REMOVE_EXISTING is clear; set-then-get returns the value; nothing else changes. |
| Checkout.SetDisableFilters | Sources/Git/Repository/Checkout.swift:34-42 | Stores 1 or 0, reads any nonzero value as true, so set-then-get returns the value; other fields are untouched. |
| Checkout.SetDirectoryMode | Sources/Git/Repository/Checkout.swift:45-53 | A mode that fits in `UInt32` reads back unchanged; other fields are untouched. |
| Checkout.SetFileMode | Sources/Git/Repository/Checkout.swift:56-64 | A mode that fits in `UInt32` reads back unchanged; other fields are untouched. |
| Remote.DecodeTagFollowing | Sources/Git/Remote.swift:118-130 | UNSPECIFIED decodes to `.default`, AUTO to `.automatic` and ALL to `.all`, each as an iff; nil iff the value is none of the three, so NONE and unknown values decode to nil. |
| Remote.EncodeTagFollowing | Sources/Git/Remote.swift:132-143 | `.default` stores UNSPECIFIED, `.automatic` AUTO, `.all` ALL, and nil NONE; NONE is stored exactly for nil. |
| Remote.TagFollowingRoundTrip | Sources/Git/Remote.swift:118-143 | Any `TagFollowing?` decodes back from its raw value, with nil stored as NONE. |
| Remote.TagFollowingEncodingInjective | Sources/Git/Remote.swift:132-143 | Distinct `TagFollowing?` values are stored as distinct raw values. |
| Remote.SetUpdateFetchHead | Sources/Git/Remote.swift:64-72 | Stores 1 or 0 and reads nonzero as true, so set-then-get returns the value; other fields are untouched. |
| Remote.GetPrune | Sources/Git/Remote.swift:74-82 | True iff the stored value is PRUNE, false iff it is NO_PRUNE, nil iff it is neither (UNSPECIFIED among them). |
| Remote.SetPrune | Sources/Git/Remote.swift:84-93 | True stores PRUNE, false NO_PRUNE and nil UNSPECIFIED; set-then-get returns the assigned `Bool?`; other fields are untouched. |
| Remote.SetTagFollowing | Sources/Git/Remote.swift:96-104 | Set-then-get returns the assigned `TagFollowing?`; other fields are untouched. |
| Remote.CustomHeaders | Sources/Git/Remote.swift:107-110 | Yields exactly `count` strings, the i-th being the decoding of the i-th C string; every string must be UTF-8 (the force-unwrap). |
| Remote.ToStringArray | Sources/Git/Extensions/Array+Extensions.swift:6-15 | One C string per element, in order: the i-th is the encoding of the i-th string. |
| Remote.CustomHeadersRoundTrip | Sources/Git/Remote.swift:146-150 | Headers stored through the array encoder read back as the same strings in the same order. |
| Clone.DecodeLocal | Sources/Git/Repository/Clone.swift:20-31 | LOCAL decodes to `.yes(useHardLinks: true)`, LOCAL_NO_LINKS to `.yes(useHardLinks: false)` and NO_LOCAL to `.no`, each as an iff; `.automatic` iff the value is none of them, so AUTO and unknown values decode to automatic. |
| Clone.EncodeLocal | Sources/Git/Repository/Clone.swift:33-44 | `.yes(true)` stores LOCAL, `.yes(false)` LOCAL_NO_LINKS, `.no` NO_LOCAL, and AUTO is stored exactly for `.automatic`. |
| Clone.LocalRoundTrip | Sources/Git/Repository/Clone.swift:33-44 | `Local(rawValue: l.rawValue) == l` for all four cases. |
| Clone.LocalEncodingInjective | Sources/Git/Repository/Clone.swift:20-44 | Distinct `Local` cases are stored as distinct raw values. |
| Clone.SetCheckoutConfiguration | Sources/Git/Repository/Clone.swift:63-71 | Setting the checkout configuration and reading it back gives the same options; other fields are untouched. |
| Clone.SetFetchConfiguration | Sources/Git/Repository/Clone.swift:73-81 | Setting the fetch configuration and reading it back gives the same options; other fields are untouched. |
| Clone.SetBare | Sources/Git/Repository/Clone.swift:84-92 | Stores 1 or 0 and reads nonzero as true, so set-then-get returns the value. |
| Clone.SetLocal | Sources/Git/Repository/Clone.swift:95-103 | Set-then-get returns the assigned case; other fields are untouched. |
| Clone.GetCheckoutBranch | Sources/Git/Repository/Clone.swift:107-110 | Reads nil while the pointer is NULL. |
| Clone.SetCheckoutBranch | Sources/Git/Repository/Clone.swift:112-114 | Assigning nil changes nothing; assigning a name that survives the C conversion reads it back; no other field changes. |
| Clone.CheckoutBranchCannotBeCleared | Sources/Git/Repository/Clone.swift:106-115 | After a name is set, assigning nil leaves the name readable. |
| Commits.IsDescendent | Sources/Git/Objects/Commit.swift:60-69 | Native 0 gives false and 1 gives true; any other result is thrown as `Error(code:)` with that code and the last message. |
| Commits.IsDescendentMatchesWrap | Sources/Git/Objects/Commit.swift:60-69 | Answers 1 and 0 read back as true and false, and any other answer is thrown as the same error `wrap` throws for it. |
| Commits.Lookup | Sources/Git/Repository.swift:141-149 | `lookup` throws `Error(code:)` iff the native code is nonzero, and otherwise gives the object found, or nil. |
| Commits.Flatten | Sources/Git/Objects/Commit.swift:10 | `try?` turns a thrown error and a nil into nil, and passes a found value through. |
| Commits.Tree | Sources/Git/Objects/Commit.swift:8-11 | `tree` is nil when the lookup throws, and the object found (possibly nil) otherwise. |
| Commits.FlattenForgetsErrors | Sources/Git/Objects/Commit.swift:10 | `try?` gives back a lifted value and forgets a thrown error, so `tree` does not depend on the error's message. |
| Commits.AsCommit | Sources/Git/Objects/Commit.swift:18 | A parent is kept iff its lookup succeeded and produced a `Commit`. |
| Commits.Parents | Sources/Git/Objects/Commit.swift:14-23 | Visiting indices `0..<parentcount` in order, the result is the parents whose lookup produced a commit, so it has at most `parentcount` entries and all of them are commits. |
| Commits.KeptIsOrderedSubsequence | Sources/Git/Objects/Commit.swift:16-20 | The result is an order-preserving subsequence of the lookups: the j-th parent kept comes from the j-th kept index, and those indices increase and stay below `parentcount`. |
| Commits.AllParentsKept | Sources/Git/Objects/Commit.swift:14-23 | When every lookup produces a commit, the result has `parentcount` entries, the i-th from index i. |
| Commits.CommitTypeTag | Sources/Git/Objects/Commit.swift:5 | `Commit`'s type tag is COMMIT, and `type(of:)` maps COMMIT back to `Commit`. |
| Objects.TypeOf | Sources/Git/Object.swift:38-57 | ANY gives `Object`, COMMIT `Commit`, TREE `Tree`, BLOB `Blob` and TAG `Tag.Annotation`, each as an iff; nil iff the tag is nil or none of these (the delta kinds among them). |
| Objects.TypeOfClassType | Sources/Git/Object.swift:15 | `type(of:)` maps each class's own tag back to that class. |
| Objects.ClassTypeOfTypeOf | Sources/Git/Object.swift:40-49 | A class `type(of:)` returns has the tag it was given as its own tag. |
| Objects.IdEqualIsIdentity | Sources/Git/Object.swift:156-167 | `ID ==` holds iff the 20 bytes are equal, so equal ids feed the hasher the same bytes. |
| Objects.AsciiLength | Sources/Git/Object.swift:131 | At most the string's length: exactly the length for an all-ASCII string, and 0 for a string holding any non-ASCII character. |
| Objects.IdFromString | Sources/Git/Object.swift:130-136 | Under the length precondition, `attempt` of `git_oid_fromstr` gives the parsed id iff the code is 0, and otherwise throws `Error(code:)` with that code and the last message. |
| Objects.NonAsciiStringPassesLengthCheck | Sources/Git/Object.swift:131 | Every string holding a non-ASCII character passes the 40-byte precondition, whatever its length; so do `n` copies of 'é' for every `n`. |
| Objects.IdFromBytesAsWritten | Sources/Git/Object.swift:139-145 | As written, up to 40 bytes are accepted; a nonzero `git_oid_fromraw` code throws `Error(code:)`, and otherwise the id is the first 20 bytes (or, for fewer, the bytes followed by whatever memory follows). |
| Objects.IdFromBytesAsWrittenDropsBytes | Sources/Git/Object.swift:140-143 | Two different 40-byte arrays that agree on their first 20 bytes give the same id when the native call succeeds. |
| Objects.IdFromBytes | Sources/Git/Object.swift:139-145 | Corrected initialiser: exactly 20 bytes; a nonzero code throws `Error(code:)`, and otherwise the id's bytes are those bytes. |
| Objects.IdFromBytesRoundTrip | Sources/Git/Object.swift:163-167 | Every id is rebuilt from its hashed bytes by a successful call, and only from those. |
| Objects.ConstructedTypeMatches | Sources/Git/Object.swift:26-30 | A constructed handle of any subclass has a native tag that `type(of:)` maps to that subclass. |
| Objects.ObjectEqualityConsistent | Sources/Git/Object.swift:93-105 | `Object ==` is an equivalence, and equal objects give equal hash inputs. |
| Indexes.DecodeStage | Sources/Git/Repository/Index.swift:74-85 | ANCESTOR decodes to `.ancestor`, OURS to `.ours` and THEIRS to `.theirs`, each as an iff; `.normal` iff the value is none of the three. |
| Indexes.EncodeStage | Sources/Git/Repository/Index.swift:87-98 | `.ancestor` stores ANCESTOR, `.ours` OURS, `.theirs` THEIRS, and NORMAL is stored exactly for `.normal`. |
| Indexes.StageRoundTrip | Sources/Git/Repository/Index.swift:87-98 | `Stage(rawValue: s.rawValue) == s` for all four stages. |
| Indexes.StageEncodingInjective | Sources/Git/Repository/Index.swift:68-99 | Distinct stages are stored as distinct raw values. |
| Indexes.StringLessIrreflexive | Sources/Git/Repository/Index.swift:168 | No string is before itself in the scalar-by-scalar order. |
| Indexes.StringLessTransitive | Sources/Git/Index.swift:113 | The scalar-by-scalar order is transitive. |
| Indexes.StringLessTotal | Sources/Git/Index.swift:112-114 | Of two different strings, one is before the other. |
| Indexes.EntryEqualIsIdEquality | Sources/Git/Repository/Index.swift:160-163 | Entries are `==` iff their blob ids are equal, whatever their paths, stages and owners. |
| Indexes.EntryLessIsStrictOrder | Sources/Git/Repository/Index.swift:167-169 | `<` looks only at paths, compared through their normalization form C. It is irreflexive, transitive, and total on paths whose normal forms differ. |
| Indexes.EqualityAndOrderDisagree | Sources/Git/Index.swift:105-114 | Two entries for the same blob at different paths are `==` and yet one is `<` the other. |
| Indexes.EntryHashAsWrittenBreaksHashable | Sources/Git/Repository/Index.swift:173-175 | As written, two equal entries with different `uid`s feed different values to the hasher. |
| Indexes.EntryHashConsistent | Sources/Git/Index.swift:105-108 | With the corrected hash, which feeds the hasher the blob id that `==` compares, equal entries hash alike. |
| Indexes.Reload | Sources/Git/Repository/Index.swift:42-62 | A failed read throws `Error(code:)` with its code and the last message, and leaves whatever index the native read left behind (an input). A hard read takes the file's entries, or none when there is no file. A soft read takes them only when the file changed since the last load, and otherwise changes nothing. |
| Indexes.ReloadSettles | Sources/Git/Index.swift:42-62 | After any successful reload the file's stamp is recorded, a soft reload changes nothing, and a hard reload gives what it gave before. |
| Indexes.SoftReloadKeepsUnchangedIndex | Sources/Git/Index.swift:50-58 | A soft reload keeps in-memory entries when the file is unchanged since it was read. |
| Indexes.EntryAtPosition | Sources/Git/Repository/Index.swift:184-190 | The integer subscript requires `0 <= i < entrycount` (`startIndex` is 0) and yields the entry at position `i`. |
| Indexes.AllPositions | Sources/Git/Repository/Index.swift:181-190 | Reading every position from `startIndex` up to `endIndex` gives the index's entries, in order. |
| Indexes.EntryAtPath | Sources/Git/Repository/Index.swift:122-130 | Paths are compared by the index's key: the path itself, or its case-folded form when the index ignores case. Nil iff no entry's path has the same key at the stage; otherwise such an entry of the index. |
| Indexes.CaseSensitiveLookupIsExact | Sources/Git/Repository/Index.swift:122-130 | When the index respects case, the result is nil iff no entry has exactly that path at that stage, and a found entry has exactly that path. |
| Indexes.PathSubscriptDefaultsToNormal | Sources/Git/Repository/Index.swift:192-194 | Without a stage, the path subscript looks up the normal stage. |
| Indexes.UnderestimatedCount | Sources/Git/Index.swift:136-139 | 0 once the owning index is gone, and the owner's entry count otherwise. |
| Indexes.UnderestimatedCountOfFreshCursor | Sources/Git/Index.swift:127-139 | For a fresh iterator over an unchanged index without failures, the count equals the number of entries it yields. |
| Indexes.Next | Sources/Git/Index.swift:143-153 | `next()` yields the next entry of the snapshot and advances. At the end, or at the first native error, it returns nil and the cursor stays put. |
| Indexes.NextStaysExhausted | Sources/Git/Index.swift:150-151 | Once `next()` has returned nil it keeps returning nil; before the end this happens only at a failure, which is assumed to recur at the same position. |
| Indexes.Drain | Sources/Git/Index.swift:123-154 | Iterating to the first nil yields the snapshot from the cursor up to its end or its first failure, in order, and leaves the cursor exhausted and owned by the same index. |
| Indexes.EntriesOf | Sources/Git/Index.swift:156-160 | `entries` is empty iff `git_index_iterator_new` fails; otherwise it wraps a fresh iterator that has the index's entries left and counts all of them. |
| Indexes.Traverse | Sources/Git/Index.swift:123-153 | A traversal yields what the iterator has left and leaves it with nothing left, since `Entries` is its own iterator. |
| Indexes.SequenceCount | Sources/Git/Index.swift:136-139 | 0 for the empty collection, and the iterator's `underestimatedCount` otherwise. |
| Indexes.Entries | Sources/Git/Index.swift:123-160 | Traversing `entries` twice: the first pass yields every entry in order, or those before the first failure of `next()`, or nothing when the iterator cannot be created. The second pass yields nothing, because the iterator is single-pass, and `underestimatedCount` still reports the entry count. |
| Heads.BranchOf | Sources/Git/Repository/Head.swift:23-30 | `branch` is the held branch iff attached, and nil otherwise. |
| Heads.AttachedDetachedComplement | Sources/Git/Repository/Head.swift:10-21 | `attached` is true iff the case is `.attached`, and `detached` is its negation. |
| Heads.CommitOf | Sources/Git/Repository/Head.swift:32-39 | `commit` is the held commit when detached and the branch's commit (possibly nil) when attached. |
| Heads.CommitOfNested | Sources/Git/Repository.swift:35-42 | In the nested copy `commit` is non-nil iff detached, and holds the detached commit. |
| Heads.NestedAccessorsDetermineHead | Sources/Git/Repository.swift:13-42 | In the nested copy exactly one of `branch` and `commit` is set, and it rebuilds the head. |
| Heads.CommitCopiesAgreement | Sources/Git/Repository.swift:35-39 | The two copies' `commit` agree on detached heads, and on an attached head only when the branch has no commit. |
| Heads.HeadAsWritten | Sources/Git/Repository.swift:105-117 | Nil iff the native head call fails; `.detached` iff the detached flag is nonzero; an attached head holds the reference as a `Branch`. |
| Heads.DetachedHeadAsWrittenIsNotACommit | Sources/Git/Repository.swift:109-110 | As written, a detached head holds a `Commit` whose pointer is a reference, not a commit object. |
| Heads.HeadOf | Sources/Git/Repository.swift:105-117 | Corrected `head`: a detached head holds the commit the reference peels to, and is nil when the peel fails. |
| Heads.HeadAgreesWhenAttached | Sources/Git/Repository.swift:111-112 | The corrected `head` agrees with the one as written whenever the head is not detached. |
| Heads.BranchNamed | Sources/Git/Repository.swift:120-131 | Throws `Error(code:)` with the lookup's code iff it is nonzero; nil iff the reference is neither a local nor a remote branch; otherwise that reference as a `Branch`. |
| Heads.BranchNamedMatchesHead | Sources/Git/Repository.swift:104-131 | Looking up the branch HEAD is attached to gives the handle `head` holds, and a failing lookup throws what `wrap` throws. |
| Heads.IndexOf | Sources/Git/Repository.swift:93-102 | `index` is nil iff the native call fails, and otherwise the handle it produced. |
| Heads.IndexOfMatchesResultOf | Sources/Git/Repository.swift:93-102 | `index` is nil exactly when `result(of:)` of the same call is a failure. |
| Signatures.Quotient | Sources/Git/Signature.swift:45 | Swift's integer `/` truncates toward zero: the quotient brackets the dividend from below for non-negatives and from above for negatives. |
| Signatures.Offset | Sources/Git/Signature.swift:45 | The stored offset is the zone's whole minutes, truncated toward zero, and must fit in `Int32`. |
| Signatures.TimeZoneOf | Sources/Git/Signature.swift:68-70 | `timeZone` is `60 * offset` seconds, and nil beyond eighteen hours either way. |
| Signatures.TimeZoneRoundTrip | Sources/Git/Signature.swift:45-70 | A representable zone reads back from the stored offset exactly when its offset is a whole number of minutes. |
| Signatures.CStringOf | Sources/Git/Signature.swift:47 | What libgit2 sees of a Swift string passed as `const char *`: its longest prefix without NUL, which is the whole string or ends just before its first NUL. |
| Signatures.CStringWhole | Sources/Git/Signature.swift:47 | A string reaches C whole exactly when it has no NUL. |
| Signatures.StoredWhole | Sources/Git/Signature.swift:47 | A name or email is stored as given exactly when it has no NUL and no surrounding whitespace. |
| Signatures.Trim | Sources/Git/Signature.swift:47 | What `git_signature_new` stores: the window of the string that drops the whitespace at both ends and keeps every other character. |
| Signatures.TrimKeepsUnpadded | Sources/Git/Signature.swift:47 | A string is stored unchanged iff it has no surrounding whitespace, and trimming twice is trimming once. |
| Signatures.NewSignature | Sources/Git/Signature.swift:39-50 | Throws `Error(code:)` iff `git_signature_new` fails. Otherwise the signature holds the name and email cut at their first NUL and trimmed, and the given time, and a whole-minute zone in range reads back. |
| Signatures.NewSignatureReadsBack | Sources/Git/Signature.swift:39-59 | The name and email read back exactly iff neither has surrounding whitespace or a NUL; " Alice" reads back as "Alice" and "Al\0ice" as "Al". |
| Signatures.DefaultSignature | Sources/Git/Signature.swift:20-26 | The configured signature iff the native call returns 0, and otherwise `Error(code:)` with that code and the last message. |
| Signatures.SignatureEqualAsWrittenIsEquivalence | Sources/Git/Signature.swift:75-79 | `==` as written is reflexive, symmetric and transitive. |
| Signatures.EqualSignaturesHashDifferently | Sources/Git/Signature.swift:83-90 | Two signatures with offsets beyond eighteen hours are `==` yet feed different offsets to the hasher. |
| Signatures.SignatureEqualMatchesHash | Sources/Git/Signature.swift:84-89 | With the corrected equality, signatures are equal iff their hash inputs are. |
| Signatures.SignatureEqualAgreesInRange | Sources/Git/Signature.swift:77 | The corrected and the written equality agree whenever a signature's `timeZone` is not nil. |
| Attributes.Lookup | Sources/Git/Repository/Attributes.swift:50-66 | A failed lookup is nil. TRUE gives `.boolean(true)` and FALSE gives `.boolean(false)`. STRING gives `.string` of the text, or "" when it is not UTF-8. Every other kind is nil. |
| Attributes.LookupRoundTrip | Sources/Git/Repository/Attributes.swift:55-63 | Every value whose string survives the C conversion reads back as itself. |
| Attributes.UnspecifiedIsNil | Sources/Git/Repository/Attributes.swift:53 | An unspecified attribute, or any failed lookup, reads as nil. |
| Attributes.LiteralsMatchLookup | Sources/Git/Repository/Attributes.swift:74-84 | `.boolean` and `.string` values built from literals are exactly what a lookup reports for them. |

## Left out

- Every libgit2 call is left out. That covers object lookup, `git_graph_ahead_behind`, the descendant search, index reading and iteration, revparse, notes, clone and fetch. Their outcomes are inputs; there is no object store, hashing or graph traversal here.
- `Commit.distance(to:)` and `Repository`'s ahead/behind wrapper: their only logic is `wrap` around `git_graph_ahead_behind`, which `Errors.Attempt` covers.
- `RevisionWalker`, `Reference`, `Branch`, `Tag`, `Note`, `Tree`, `Blob`, `Message` and `Credentials`: these are native calls or data without local decisions. A `Branch`'s commit enters `Heads.CommitOf` as a parameter.
- Memory management is left out: the `managed` flags, `deinit`, `allocate`/`deallocate`, `withCString` lifetimes and `strdup`. The pointer that `checkoutBranch`'s setter keeps after `withCString` returns is modelled as the string's bytes.
- `Date`, `TimeInterval` and `TimeZone` conversions: times are whole seconds, and a time zone is its offset in seconds.
- The global `initializer` side effect in `attempt`, the `fatalError` stub in `Remote`, and the `git_*_options_init` defaults.
- `ID(data:)`: it reinterprets the data's storage as an array, which has no meaning in a value model.
- Unicode normalization is left out. Swift's `String <` compares the normalization form C of both strings scalar by scalar; `Indexes.EntryLess` takes that normalization as a parameter.
- Entry paths are compared as Swift strings. The C path that `git_index_get_bypath` compares is their encoding.
- `Indexes.EntryAtPath`: the case folding libgit2 applies when the index ignores case is a parameter. When several entries share a key, the model finds the first.
- `Signatures.NewSignature`: libgit2 also refuses a name or email with angle brackets or one that trims to nothing; the model has only the nonzero code for these. The whitespace trimmed is libgit2's `git__isspace` set. libgit2's signature code is not part of this model. Strings are passed to C as UTF-8, where only NUL encodes to a zero byte, so the cut is stated on characters; the `name` and `email` getters' `String(validatingUTF8:)!` then gives back the stored characters, since trimming ASCII whitespace from valid UTF-8 leaves valid UTF-8.
- `Objects.AsciiLength` assumes that Foundation gives 0 for a string that cannot be converted to ASCII.
- Which `Object` subclass Swift's type inference asks `lookup` to build for `parents` and `tree` is not modelled. The class of the handle a lookup produces is an input.
- `Remote.CustomHeaders`: it requires every header to be UTF-8, because the source traps on any that is not. The array holds no NULL entries: the source also force-unwraps each `strings[i]` pointer and traps on a NULL one, which the model's array of C strings cannot express.
- `Indexes.Reload`: the hard/soft semantics of `git_index_read` are taken from the documentation of `reload`. A file change is detected through a stamp. Nothing is promised about the index after a failed read: it is an input.
- `Indexes.Next`: a native failure of `git_index_iterator_next` is placed at a fixed position of the cursor, so a repeated `next()` there fails again. The wrapper calls the native function anew each time, and nothing in it makes a failure recur; `NextStaysExhausted` depends on this assumption at a failure, and holds without it only at the end (ITEROVER).

## Findings

| source | as written | input that shows it | evidently intended | confidence | as-written member | corrected member |
|---|---|---|---|---|---|---|
| Sources/Git/Repository/Checkout.swift:93-95 | the `allowConflicts` setter always ORs ALLOW_CONFLICTS into the word | assign `false` to `allowConflicts` | clear the bit when false is assigned | high, not executed | Checkout.SetAllowConflictsAsWritten | Checkout.SetAllowConflicts |
| Sources/Git/Repository/Checkout.swift:213-219 | the `removeExisting` setter clears or sets ALLOW_CONFLICTS | a word with DONT_REMOVE_EXISTING set; assign `true` to `removeExisting` | clear or set DONT_REMOVE_EXISTING | high, not executed | Checkout.SetRemoveExistingAsWritten | Checkout.SetRemoveExisting |
| Sources/Git/Object.swift:139-145 | `ID(bytes:)` accepts up to 40 bytes, but `git_oid_fromraw` copies 20 | two 40-byte arrays differing at byte 20; or a 5-byte array, whose id reads memory past the array | require exactly 20 bytes | high, not executed | Objects.IdFromBytesAsWritten | Objects.IdFromBytes |
| Sources/Git/Repository/Index.swift:173-175 | `Entry.hash` combines `uid` while `==` compares blob ids | two entries for the same blob with different `uid`s | hash the blob id | high, not executed | Indexes.EntryHashAsWrittenBreaksHashable | Indexes.EntryHashConsistent |
| Sources/Git/Index.swift:118-120 | the second copy of `Entry`: `hash` combines `uid` while `==` (Index.swift:105-108) compares blob ids | two entries for the same blob with different `uid`s | hash the blob id | high, not executed | Indexes.EntryHashAsWrittenBreaksHashable | Indexes.EntryHashConsistent |
| Sources/Git/Signature.swift:75-90 | `==` compares the optional `timeZone` but `hash` combines the raw offset | offsets of 1081 and 1082 minutes, both beyond what `TimeZone(secondsFromGMT:)` accepts | compare the raw offset, as the hash does | medium (rests on Foundation's eighteen-hour limit), not executed | Signatures.EqualSignaturesHashDifferently | Signatures.SignatureEqualMatchesHash |
| Sources/Git/Repository.swift:109-110 | a detached `head` wraps the `git_reference` pointer from `git_repository_head` as a `Commit` | any repository with a detached HEAD; the `assert` in `Object.init` (Object.swift:26-29) compares the type of a reference pointer, so a debug build traps | peel the reference to its commit | medium, not executed | Heads.DetachedHeadAsWrittenIsNotACommit | Heads.HeadOf |

=== FILE: attributes.dfy ===
/**
 `Repository.Attributes`: decoding the answer of `git_attr_get` into an
 optional `Value`, and the literal initialisers of `Value`.
 */
module Attributes {
  import opened Native

  datatype Value = Boolean(b: bool) | Str(s: string)

  /**
   The `git_attr_value_t` kinds. Their values live in a C header the wrapper
   does not show; the lemmas hold for any four distinct values.
   */
  datatype Constants = Constants(unspecified: int, isTrue: int, isFalse: int, isString: int)
  {
    predicate Valid() {
      Distinct4(unspecified, isTrue, isFalse, isString)
    }
  }

  /** The values of libgit2's attr.h, one admissible choice. */
  const LIBGIT2: Constants := Constants(0, 1, 2, 3)

  lemma LibGit2Valid()
    ensures LIBGIT2.Valid()
  {
  }

  /** What `git_attr_get` left behind: the kind `git_attr_value` reports, and the value string. */
  datatype Stored = Stored(kind: int, text: CString)

  /**
   `subscript(_:)`: nil when `git_attr_get` fails (`code` nonzero); otherwise
   TRUE and FALSE become booleans, STRING becomes the string (or "" when its
   bytes are not UTF-8), and any other kind (unspecified among them) is nil.
   */
  function Lookup(K: Constants, T: StringCodec, code: int32, stored: Stored): (r: Option<Value>)
    ensures code != 0 ==> r == None
    ensures code == 0 && stored.kind == K.isTrue ==> r == Some(Boolean(true))
    ensures code == 0 && stored.kind == K.isFalse && stored.kind != K.isTrue ==> r == Some(Boolean(false))
    ensures code == 0 && stored.kind == K.isString && stored.kind != K.isTrue && stored.kind != K.isFalse
            ==> r == Some(Str(match T.decode(stored.text) case Some(s) => s case None => ""))
    ensures r.Some? <==> code == 0 && stored.kind in {K.isTrue, K.isFalse, K.isString}
  {
    if code != 0 then None
    else if stored.kind == K.isTrue then Some(Boolean(true))
    else if stored.kind == K.isFalse then Some(Boolean(false))
    else if stored.kind == K.isString then
      Some(Str(match T.decode(stored.text) case Some(s) => s case None => ""))
    else None
  }

  /** How a value is stored for `git_attr_get` to report it. */
  function Store(K: Constants, T: StringCodec, v: Value): Stored {
    match v
    case Boolean(true) => Stored(K.isTrue, [])
    case Boolean(false) => Stored(K.isFalse, [])
    case Str(s) => Stored(K.isString, T.encode(s))
  }

  /** Every value whose string survives the C conversion reads back as itself. */
  lemma LookupRoundTrip(K: Constants, T: StringCodec, v: Value)
    requires K.Valid()
    requires v.Str? ==> T.RoundTrips(v.s)
    ensures Lookup(K, T, 0, Store(K, T, v)) == Some(v)
  {
  }

  /** An unspecified attribute, or a failed lookup, reads as nil whatever was stored. */
  lemma UnspecifiedIsNil(K: Constants, T: StringCodec, code: int32, text: CString, v: Value)
    requires K.Valid()
    ensures Lookup(K, T, code, Stored(K.unspecified, text)) == None
    ensures code != 0 ==> Lookup(K, T, code, Store(K, T, v)) == None
  {
  }

  /** `init(booleanLiteral:)`. */
  function FromBooleanLiteral(b: bool): (v: Value)
    ensures v.Boolean? && v.b == b
  {
    Boolean(b)
  }

  /** `init(stringLiteral:)`. */
  function FromStringLiteral(s: string): (v: Value)
    ensures v.Str? && v.s == s
  {
    Str(s)
  }

  /** Values built from literals are the ones a lookup reports for them. */
  lemma LiteralsMatchLookup(K: Constants, T: StringCodec, b: bool, s: string)
    requires K.Valid()
    requires T.RoundTrips(s)
    ensures Lookup(K, T, 0, Store(K, T, FromBooleanLiteral(b))) == Some(FromBooleanLiteral(b))
    ensures Lookup(K, T, 0, Store(K, T, FromStringLiteral(s))) == Some(FromStringLiteral(s))
  {
    LookupRoundTrip(K, T, FromBooleanLiteral(b));
    LookupRoundTrip(K, T, FromStringLiteral(s));
  }
}

=== FILE: checkout.dfy ===
/**
 `Repository.Checkout.Configuration`: a `git_checkout_options` record whose
 `checkout_strategy` word packs a strategy, a conflict resolution and eight
 boolean flags. The getters decode the word and the setters rebuild it.
 */
module Checkout {
  import opened Native

  datatype Strategy = Force | Safe

  datatype ConflictResolution = SkipUnmerged | UseOurs | UseTheirs

  /** The `git_checkout_strategy_t` constants the wrapper reads or writes. */
  datatype Flag =
    | SAFE | FORCE | ALLOW_CONFLICTS | REMOVE_UNTRACKED | REMOVE_IGNORED | UPDATE_ONLY
    | DONT_UPDATE_INDEX | NO_REFRESH | SKIP_UNMERGED | USE_OURS | USE_THEIRS
    | DONT_OVERWRITE_IGNORED | DONT_REMOVE_EXISTING

  /** A bit position of a 32-bit word. */
  type Bit = b: int | 0 <= b < 32

  /**
   A `UInt32` strategy word, as the set of its one bits. Every constant
   above is a single-bit mask, so `w & MASK != 0` is membership of the
   mask's bit, `w | MASK` adds it and `w & ~MASK` removes it.
   */
  type Word = set<Bit>

  /** `GIT_CHECKOUT_NONE`, zero in libgit2's checkout.h. */
  const NONE: Word := {}

  /**
   Where each constant's bit sits. The values live in a C header the wrapper
   does not show, so every lemma holds for any placement that keeps the
   constants distinct.
   */
  type Masks = Flag -> Bit

  predicate Valid(M: Masks) {
    forall a: Flag, b: Flag :: M(a) == M(b) ==> a == b
  }

  /** The placement in libgit2's checkout.h, one admissible choice. */
  function LibGit2(f: Flag): Bit {
    match f
    case SAFE => 0
    case FORCE => 1
    case ALLOW_CONFLICTS => 4
    case REMOVE_UNTRACKED => 5
    case REMOVE_IGNORED => 6
    case UPDATE_ONLY => 7
    case DONT_UPDATE_INDEX => 8
    case NO_REFRESH => 9
    case SKIP_UNMERGED => 10
    case USE_OURS => 11
    case USE_THEIRS => 12
    case DONT_OVERWRITE_IGNORED => 19
    case DONT_REMOVE_EXISTING => 22
  }

  lemma LibGit2Valid()
    ensures Valid(LibGit2)
  {
  }

  /** Every bit the setters can produce. */
  function Known(M: Masks): Word {
    set f: Flag | true :: M(f)
  }

  /** True when the constant's bit is set in the word. */
  predicate Has(M: Masks, w: Word, f: Flag) {
    M(f) in w
  }

  /** The single-bit mask of one constant. */
  function Mask(M: Masks, f: Flag): Word {
    {M(f)}
  }

  // ---------------------------------------------------------------------------
  // The two Optional codecs

  /** `Optional<Strategy>(rawValue:)`: FORCE is tested before SAFE. */
  function DecodeStrategy(M: Masks, w: Word): (r: Option<Strategy>)
    ensures r == Some(Force) <==> Has(M, w, FORCE)
    ensures r == Some(Safe) <==> !Has(M, w, FORCE) && Has(M, w, SAFE)
    ensures r == None <==> !Has(M, w, FORCE) && !Has(M, w, SAFE)
  {
    if Has(M, w, FORCE) then Some(Force)
    else if Has(M, w, SAFE) then Some(Safe)
    else None
  }

  /** `Optional<Strategy>.rawValue`: `nil` encodes as NONE. */
  function EncodeStrategy(M: Masks, s: Option<Strategy>): (w: Word)
    ensures w <= Mask(M, FORCE) + Mask(M, SAFE)
    ensures |w| <= 1
    ensures w == NONE <==> s == None
    ensures s == Some(Force) ==> w == Mask(M, FORCE)
    ensures s == Some(Safe) ==> w == Mask(M, SAFE)
  {
    match s
    case Some(Force) => Mask(M, FORCE)
    case Some(Safe) => Mask(M, SAFE)
    case None => NONE
  }

  /** `Optional<ConflictResolution>(rawValue:)`: SKIP_UNMERGED, then USE_OURS, then USE_THEIRS. */
  function DecodeResolution(M: Masks, w: Word): (r: Option<ConflictResolution>)
    ensures r == Some(SkipUnmerged) <==> Has(M, w, SKIP_UNMERGED)
    ensures r == Some(UseOurs) <==> !Has(M, w, SKIP_UNMERGED) && Has(M, w, USE_OURS)
    ensures r == Some(UseTheirs) <==> !Has(M, w, SKIP_UNMERGED) && !Has(M, w, USE_OURS) && Has(M, w, USE_THEIRS)
    ensures r == None <==> !Has(M, w, SKIP_UNMERGED) && !Has(M, w, USE_OURS) && !Has(M, w, USE_THEIRS)
  {
    if Has(M, w, SKIP_UNMERGED) then Some(SkipUnmerged)
    else if Has(M, w, USE_OURS) then Some(UseOurs)
    else if Has(M, w, USE_THEIRS) then Some(UseTheirs)
    else None
  }

  /** `Optional<ConflictResolution>.rawValue`: `nil` encodes as NONE. */
  function EncodeResolution(M: Masks, c: Option<ConflictResolution>): (w: Word)
    ensures w <= Mask(M, SKIP_UNMERGED) + Mask(M, USE_OURS) + Mask(M, USE_THEIRS)
    ensures |w| <= 1
    ensures w == NONE <==> c == None
    ensures c == Some(SkipUnmerged) ==> w == Mask(M, SKIP_UNMERGED)
    ensures c == Some(UseOurs) ==> w == Mask(M, USE_OURS)
    ensures c == Some(UseTheirs) ==> w == Mask(M, USE_THEIRS)
  {
    match c
    case Some(SkipUnmerged) => Mask(M, SKIP_UNMERGED)
    case Some(UseOurs) => Mask(M, USE_OURS)
    case Some(UseTheirs) => Mask(M, USE_THEIRS)
    case None => NONE
  }

  lemma StrategyRoundTrip(M: Masks, s: Option<Strategy>)
    requires Valid(M)
    ensures DecodeStrategy(M, EncodeStrategy(M, s)) == s
  {
  }

  lemma ResolutionRoundTrip(M: Masks, c: Option<ConflictResolution>)
    requires Valid(M)
    ensures DecodeResolution(M, EncodeResolution(M, c)) == c
  {
  }

  // ---------------------------------------------------------------------------
  // The configuration record and its getters

  /**
   The fields of `git_checkout_options` the wrapper reads or writes:
   `checkout_strategy`, `disable_filters`, `dir_mode` and `file_mode`.
   */
  datatype Options = Options(checkoutStrategy: Word, disableFilters: int32,
                             dirMode: uint32, fileMode: uint32)

  /** Every getter of `Configuration` that reads the strategy word, side by side. */
  datatype View = View(
    strategy: Option<Strategy>, conflictResolution: Option<ConflictResolution>,
    allowConflicts: bool, removeUntracked: bool, removeIgnored: bool, updateOnly: bool,
    updateIndex: bool, refreshIndex: bool, overwriteIgnored: bool, removeExisting: bool)

  function GetStrategy(M: Masks, o: Options): Option<Strategy> {
    DecodeStrategy(M, o.checkoutStrategy)
  }

  function GetConflictResolution(M: Masks, o: Options): Option<ConflictResolution> {
    DecodeResolution(M, o.checkoutStrategy)
  }

  predicate GetAllowConflicts(M: Masks, o: Options) { Has(M, o.checkoutStrategy, ALLOW_CONFLICTS) }
  predicate GetRemoveUntracked(M: Masks, o: Options) { Has(M, o.checkoutStrategy, REMOVE_UNTRACKED) }
  predicate GetRemoveIgnored(M: Masks, o: Options) { Has(M, o.checkoutStrategy, REMOVE_IGNORED) }
  predicate GetUpdateOnly(M: Masks, o: Options) { Has(M, o.checkoutStrategy, UPDATE_ONLY) }

  // The next four read true when their DONT_/NO_ bit is clear.
  predicate GetUpdateIndex(M: Masks, o: Options) { !Has(M, o.checkoutStrategy, DONT_UPDATE_INDEX) }
  predicate GetRefreshIndex(M: Masks, o: Options) { !Has(M, o.checkoutStrategy, NO_REFRESH) }
  predicate GetOverwriteIgnored(M: Masks, o: Options) { !Has(M, o.checkoutStrategy, DONT_OVERWRITE_IGNORED) }
  predicate GetRemoveExisting(M: Masks, o: Options) { !Has(M, o.checkoutStrategy, DONT_REMOVE_EXISTING) }

  /** What every strategy-word getter currently reports. */
  function Read(M: Masks, o: Options): View {
    View(GetStrategy(M, o), GetConflictResolution(M, o), GetAllowConflicts(M, o),
         GetRemoveUntracked(M, o), GetRemoveIgnored(M, o), GetUpdateOnly(M, o),
         GetUpdateIndex(M, o), GetRefreshIndex(M, o), GetOverwriteIgnored(M, o),
         GetRemoveExisting(M, o))
  }

  /**
   Whether the getter values `v` put the bit of `f` into the word the
   setters assemble: `strategy.rawValue` brings SAFE or FORCE,
   `conflictResolution.rawValue` one of the three resolution bits, and each
   boolean its own mask (the DONT_/NO_ ones when the boolean is false).
   */
  predicate Contributes(v: View, f: Flag) {
    match f
    case SAFE => v.strategy == Some(Safe)
    case FORCE => v.strategy == Some(Force)
    case ALLOW_CONFLICTS => v.allowConflicts
    case REMOVE_UNTRACKED => v.removeUntracked
    case REMOVE_IGNORED => v.removeIgnored
    case UPDATE_ONLY => v.updateOnly
    case DONT_UPDATE_INDEX => !v.updateIndex
    case NO_REFRESH => !v.refreshIndex
    case SKIP_UNMERGED => v.conflictResolution == Some(SkipUnmerged)
    case USE_OURS => v.conflictResolution == Some(UseOurs)
    case USE_THEIRS => v.conflictResolution == Some(UseTheirs)
    case DONT_OVERWRITE_IGNORED => !v.overwriteIgnored
    case DONT_REMOVE_EXISTING => !v.removeExisting
  }

  /**
   The word the `strategy` and `conflictResolution` setters assemble: the OR
   of one term per getter, each contributing its mask or nothing.
   */
  function Compose(M: Masks, v: View): (w: Word)
    ensures w <= Known(M)
  {
    set f: Flag | Contributes(v, f) :: M(f)
  }

  /** A composed word holds exactly the bits its getter values ask for. */
  lemma HasCompose(M: Masks, v: View, f: Flag)
    requires Valid(M)
    ensures Has(M, Compose(M, v), f) <==> Contributes(v, f)
  {
  }

  /** The strategy and resolution codes are among the composed word's terms. */
  lemma ComposeHasCodes(M: Masks, v: View)
    requires Valid(M)
    ensures EncodeStrategy(M, v.strategy) <= Compose(M, v)
    ensures EncodeResolution(M, v.conflictResolution) <= Compose(M, v)
  {
    ComposeHasStrategyCode(M, v);
    ComposeHasResolutionCode(M, v);
  }

  lemma ComposeHasStrategyCode(M: Masks, v: View)
    requires Valid(M)
    ensures EncodeStrategy(M, v.strategy) <= Compose(M, v)
  {
    match v.strategy {
      case None =>
      case Some(Force) => HasCompose(M, v, FORCE);
      case Some(Safe) => HasCompose(M, v, SAFE);
    }
  }

  lemma ComposeHasResolutionCode(M: Masks, v: View)
    requires Valid(M)
    ensures EncodeResolution(M, v.conflictResolution) <= Compose(M, v)
  {
    match v.conflictResolution {
      case None =>
      case Some(SkipUnmerged) => HasCompose(M, v, SKIP_UNMERGED);
      case Some(UseOurs) => HasCompose(M, v, USE_OURS);
      case Some(UseTheirs) => HasCompose(M, v, USE_THEIRS);
    }
  }

  lemma DecodeComposeStrategy(M: Masks, v: View)
    requires Valid(M)
    ensures DecodeStrategy(M, Compose(M, v)) == v.strategy
  {
    HasCompose(M, v, SAFE);
    HasCompose(M, v, FORCE);
    match v.strategy {
      case None =>
      case Some(Force) =>
      case Some(Safe) =>
    }
  }

  lemma DecodeComposeResolution(M: Masks, v: View)
    requires Valid(M)
    ensures DecodeResolution(M, Compose(M, v)) == v.conflictResolution
  {
    HasCompose(M, v, SKIP_UNMERGED);
    HasCompose(M, v, USE_OURS);
    HasCompose(M, v, USE_THEIRS);
    match v.conflictResolution {
      case None =>
      case Some(SkipUnmerged) =>
      case Some(UseOurs) =>
      case Some(UseTheirs) =>
    }
  }

  /** Decoding a composed word gives back every getter's value. */
  lemma ReadCompose(M: Masks, v: View, o: Options)
    requires Valid(M)
    ensures Read(M, o.(checkoutStrategy := Compose(M, v))) == v
  {
    DecodeComposeStrategy(M, v);
    DecodeComposeResolution(M, v);
    HasCompose(M, v, ALLOW_CONFLICTS);
    HasCompose(M, v, REMOVE_UNTRACKED);
    HasCompose(M, v, REMOVE_IGNORED);
    HasCompose(M, v, UPDATE_ONLY);
    HasCompose(M, v, DONT_UPDATE_INDEX);
    HasCompose(M, v, NO_REFRESH);
    HasCompose(M, v, DONT_OVERWRITE_IGNORED);
    HasCompose(M, v, DONT_REMOVE_EXISTING);
  }

  // ---------------------------------------------------------------------------
  // Setters

  /** `strategy = s`: rebuilds the word from the current getters and `s`. */
  function SetStrategy(M: Masks, o: Options, s: Option<Strategy>): (r: Options)
    requires Valid(M)
    ensures Read(M, r) == Read(M, o).(strategy := s)
    ensures r.checkoutStrategy <= Known(M)
    ensures r.checkoutStrategy == Compose(M, Read(M, r))
    ensures r.(checkoutStrategy := o.checkoutStrategy) == o
  {
    ReadCompose(M, Read(M, o).(strategy := s), o);
    o.(checkoutStrategy := Compose(M, Read(M, o).(strategy := s)))
  }

  /** `conflictResolution = c`: rebuilds the word from the current getters and `c`. */
  function SetConflictResolution(M: Masks, o: Options, c: Option<ConflictResolution>): (r: Options)
    requires Valid(M)
    ensures Read(M, r) == Read(M, o).(conflictResolution := c)
    ensures r.checkoutStrategy <= Known(M)
    ensures r.checkoutStrategy == Compose(M, Read(M, r))
    ensures r.(checkoutStrategy := o.checkoutStrategy) == o
  {
    ReadCompose(M, Read(M, o).(conflictResolution := c), o);
    o.(checkoutStrategy := Compose(M, Read(M, o).(conflictResolution := c)))
  }

  /** Sets (`on`) or clears the bit of `f`: `w | MASK` or `w & ~MASK`. */
  function Assign(M: Masks, w: Word, f: Flag, on: bool): (r: Word)
    ensures Has(M, r, f) == on
    ensures r - Mask(M, f) == w - Mask(M, f)
  {
    if on then w + Mask(M, f) else w - Mask(M, f)
  }

  function SetRemoveUntracked(M: Masks, o: Options, v: bool): (r: Options)
    requires Valid(M)
    ensures Read(M, r) == Read(M, o).(removeUntracked := v)
    ensures r.checkoutStrategy - Mask(M, REMOVE_UNTRACKED) == o.checkoutStrategy - Mask(M, REMOVE_UNTRACKED)
    ensures r.(checkoutStrategy := o.checkoutStrategy) == o
  {
    o.(checkoutStrategy := Assign(M, o.checkoutStrategy, REMOVE_UNTRACKED, v))
  }

  function SetRemoveIgnored(M: Masks, o: Options, v: bool): (r: Options)
    requires Valid(M)
    ensures Read(M, r) == Read(M, o).(removeIgnored := v)
    ensures r.checkoutStrategy - Mask(M, REMOVE_IGNORED) == o.checkoutStrategy - Mask(M, REMOVE_IGNORED)
    ensures r.(checkoutStrategy := o.checkoutStrategy) == o
  {
    o.(checkoutStrategy := Assign(M, o.checkoutStrategy, REMOVE_IGNORED, v))
  }

  function SetUpdateOnly(M: Masks, o: Options, v: bool): (r: Options)
    requires Valid(M)
    ensures Read(M, r) == Read(M, o).(updateOnly := v)
    ensures r.checkoutStrategy - Mask(M, UPDATE_ONLY) == o.checkoutStrategy - Mask(M, UPDATE_ONLY)
    ensures r.(checkoutStrategy := o.checkoutStrategy) == o
  {
    o.(checkoutStrategy := Assign(M, o.checkoutStrategy, UPDATE_ONLY, v))
  }

  function SetUpdateIndex(M: Masks, o: Options, v: bool): (r: Options)
    requires Valid(M)
    ensures Read(M, r) == Read(M, o).(updateIndex := v)
    ensures r.checkoutStrategy - Mask(M, DONT_UPDATE_INDEX) == o.checkoutStrategy - Mask(M, DONT_UPDATE_INDEX)
    ensures r.(checkoutStrategy := o.checkoutStrategy) == o
  {
    o.(checkoutStrategy := Assign(M, o.checkoutStrategy, DONT_UPDATE_INDEX, !v))
  }

  function SetRefreshIndex(M: Masks, o: Options, v: bool): (r: Options)
    requires Valid(M)
    ensures Read(M, r) == Read(M, o).(refreshIndex := v)
    ensures r.checkoutStrategy - Mask(M, NO_REFRESH) == o.checkoutStrategy - Mask(M, NO_REFRESH)
    ensures r.(checkoutStrategy := o.checkoutStrategy) == o
  {
    o.(checkoutStrategy := Assign(M, o.checkoutStrategy, NO_REFRESH, !v))
  }

  function SetOverwriteIgnored(M: Masks, o: Options, v: bool): (r: Options)
    requires Valid(M)
    ensures Read(M, r) == Read(M, o).(overwriteIgnored := v)
    ensures r.checkoutStrategy - Mask(M, DONT_OVERWRITE_IGNORED)
            == o.checkoutStrategy - Mask(M, DONT_OVERWRITE_IGNORED)
    ensures r.(checkoutStrategy := o.checkoutStrategy) == o
  {
    o.(checkoutStrategy := Assign(M, o.checkoutStrategy, DONT_OVERWRITE_IGNORED, !v))
  }

  /** `allowConflicts = v` as written: the bit is OR-ed in whatever `v` is. */
  function SetAllowConflictsAsWritten(M: Masks, o: Options, v: bool): (r: Options)
    requires Valid(M)
    ensures Read(M, r) == Read(M, o).(allowConflicts := true)
    ensures r.checkoutStrategy - Mask(M, ALLOW_CONFLICTS) == o.checkoutStrategy - Mask(M, ALLOW_CONFLICTS)
    ensures r.(checkoutStrategy := o.checkoutStrategy) == o
  {
    o.(checkoutStrategy := o.checkoutStrategy + Mask(M, ALLOW_CONFLICTS))
  }

  /** Assigning `false` through the setter as written leaves `allowConflicts` reading true. */
  lemma AllowConflictsCannotBeCleared(M: Masks, o: Options)
    requires Valid(M)
    ensures GetAllowConflicts(M, SetAllowConflictsAsWritten(M, o, false))
  {
  }

  /** `allowConflicts = v` as evidently intended: set or clear, like its siblings. */
  function SetAllowConflicts(M: Masks, o: Options, v: bool): (r: Options)
    requires Valid(M)
    ensures Read(M, r) == Read(M, o).(allowConflicts := v)
    ensures r.checkoutStrategy - Mask(M, ALLOW_CONFLICTS) == o.checkoutStrategy - Mask(M, ALLOW_CONFLICTS)
    ensures r.(checkoutStrategy := o.checkoutStrategy) == o
  {
    o.(checkoutStrategy := Assign(M, o.checkoutStrategy, ALLOW_CONFLICTS, v))
  }

  /** `removeExisting = v` as written: it toggles ALLOW_CONFLICTS, not DONT_REMOVE_EXISTING. */
  function SetRemoveExistingAsWritten(M: Masks, o: Options, v: bool): (r: Options)
    requires Valid(M)
    ensures Read(M, r) == Read(M, o).(allowConflicts := !v)
    ensures r.checkoutStrategy - Mask(M, ALLOW_CONFLICTS) == o.checkoutStrategy - Mask(M, ALLOW_CONFLICTS)
    ensures r.(checkoutStrategy := o.checkoutStrategy) == o
  {
    o.(checkoutStrategy := Assign(M, o.checkoutStrategy, ALLOW_CONFLICTS, !v))
  }

  /**
   A configuration with DONT_REMOVE_EXISTING set still reads
   `removeExisting == false` after `removeExisting = true`, which has
   turned `allowConflicts` off instead.
   */
  lemma RemoveExistingSetterIgnoresValue(M: Masks)
    requires Valid(M)
    ensures var o := Options(Mask(M, DONT_REMOVE_EXISTING), 0, 0, 0);
            !GetRemoveExisting(M, SetRemoveExistingAsWritten(M, o, true))
            && !GetAllowConflicts(M, SetRemoveExistingAsWritten(M, o, true))
  {
  }

  /** `removeExisting = v` as evidently intended: clear or set DONT_REMOVE_EXISTING. */
  function SetRemoveExisting(M: Masks, o: Options, v: bool): (r: Options)
    requires Valid(M)
    ensures Read(M, r) == Read(M, o).(removeExisting := v)
    ensures r.checkoutStrategy - Mask(M, DONT_REMOVE_EXISTING)
            == o.checkoutStrategy - Mask(M, DONT_REMOVE_EXISTING)
    ensures r.(checkoutStrategy := o.checkoutStrategy) == o
  {
    o.(checkoutStrategy := Assign(M, o.checkoutStrategy, DONT_REMOVE_EXISTING, !v))
  }

  // ---------------------------------------------------------------------------
  // The other option fields

  /** `disableFilters`: any nonzero `disable_filters` reads as true; the setter stores 1 or 0. */
  predicate GetDisableFilters(o: Options) { o.disableFilters != 0 }

  function SetDisableFilters(o: Options, v: bool): (r: Options)
    ensures GetDisableFilters(r) == v
    ensures r.disableFilters == 0 || r.disableFilters == 1
    ensures r.(disableFilters := o.disableFilters) == o
  {
    o.(disableFilters := if v then 1 else 0)
  }

  /** `directoryMode`: the getter's `numericCast` to `Int` always fits. */
  function GetDirectoryMode(o: Options): int { o.dirMode as int }

  /** The setter's `numericCast` to `UInt32` traps unless the value fits. */
  function SetDirectoryMode(o: Options, mode: int): (r: Options)
    requires 0 <= mode < 0x1_0000_0000
    ensures GetDirectoryMode(r) == mode
    ensures r.(dirMode := o.dirMode) == o
  {
    o.(dirMode := mode as uint32)
  }

  function GetFileMode(o: Options): int { o.fileMode as int }

  function SetFileMode(o: Options, mode: int): (r: Options)
    requires 0 <= mode < 0x1_0000_0000
    ensures GetFileMode(r) == mode
    ensures r.(fileMode := o.fileMode) == o
  {
    o.(fileMode := mode as uint32)
  }
}

=== FILE: clone.dfy ===
/**
 `Repository.Clone`: the `Local` codec and the `git_clone_options` fields
 `Clone.Configuration` reads and writes.
 */
module Clone {
  import opened Native
  import Checkout
  import Remote

  datatype Local = Automatic | Yes(useHardLinks: bool) | No

  /**
   The `git_clone_local_t` constants. Their values live in a C header the
   wrapper does not show; the lemmas hold for any four distinct values.
   */
  datatype Constants = Constants(auto: int, local: int, localNoLinks: int, noLocal: int)
  {
    predicate Valid() {
      Distinct4(auto, local, localNoLinks, noLocal)
    }
  }

  /**
   The values of libgit2's clone.h, which declares AUTO, LOCAL, NO_LOCAL and
   LOCAL_NO_LINKS in that order.
   */
  const LIBGIT2: Constants := Constants(0, 1, 3, 2)

  lemma LibGit2Valid()
    ensures LIBGIT2.Valid()
  {
  }

  /** `Local(rawValue:)`: AUTO and every unknown value decode to `.automatic`. */
  function DecodeLocal(K: Constants, raw: int): (l: Local)
    ensures l == Automatic <==> raw != K.local && raw != K.localNoLinks && raw != K.noLocal
    ensures l == Yes(true) <==> raw == K.local
    ensures K.Valid() ==> (l == Yes(false) <==> raw == K.localNoLinks)
    ensures K.Valid() ==> (l == No <==> raw == K.noLocal)
  {
    if raw == K.local then Yes(true)
    else if raw == K.localNoLinks then Yes(false)
    else if raw == K.noLocal then No
    else Automatic
  }

  /** `Local.rawValue`. */
  function EncodeLocal(K: Constants, l: Local): (r: int)
    ensures r in {K.auto, K.local, K.localNoLinks, K.noLocal}
    ensures K.Valid() ==> (r == K.auto <==> l == Automatic)
    ensures l == Yes(true) ==> r == K.local
    ensures l == Yes(false) ==> r == K.localNoLinks
    ensures l == No ==> r == K.noLocal
  {
    match l
    case Automatic => K.auto
    case Yes(true) => K.local
    case Yes(false) => K.localNoLinks
    case No => K.noLocal
  }

  lemma LocalRoundTrip(K: Constants, l: Local)
    requires K.Valid()
    ensures DecodeLocal(K, EncodeLocal(K, l)) == l
  {
  }

  /** The four cases store four different values. */
  lemma LocalEncodingInjective(K: Constants, l: Local, m: Local)
    requires K.Valid()
    requires EncodeLocal(K, l) == EncodeLocal(K, m)
    ensures l == m
  {
    LocalRoundTrip(K, l);
    LocalRoundTrip(K, m);
  }

  /**
   The fields of `git_clone_options` the wrapper touches. `checkoutBranch`
   is the C string `checkout_branch` points at, or `None` for NULL.
   */
  datatype CloneOptions = CloneOptions(
    checkoutOpts: Checkout.Options, fetchOpts: Remote.FetchOptions,
    bare: int32, local: int, checkoutBranch: Option<CString>)

  function GetCheckoutConfiguration(o: CloneOptions): Checkout.Options { o.checkoutOpts }

  function SetCheckoutConfiguration(o: CloneOptions, c: Checkout.Options): (r: CloneOptions)
    ensures GetCheckoutConfiguration(r) == c
    ensures r.(checkoutOpts := o.checkoutOpts) == o
  {
    o.(checkoutOpts := c)
  }

  function GetFetchConfiguration(o: CloneOptions): Remote.FetchOptions { o.fetchOpts }

  function SetFetchConfiguration(o: CloneOptions, f: Remote.FetchOptions): (r: CloneOptions)
    ensures GetFetchConfiguration(r) == f
    ensures r.(fetchOpts := o.fetchOpts) == o
  {
    o.(fetchOpts := f)
  }

  /** `bare`: any nonzero value reads as true. */
  predicate GetBare(o: CloneOptions) { o.bare != 0 }

  /** The setter stores 1 or 0. */
  function SetBare(o: CloneOptions, v: bool): (r: CloneOptions)
    ensures GetBare(r) == v
    ensures r.bare == 0 || r.bare == 1
    ensures r.(bare := o.bare) == o
  {
    o.(bare := if v then 1 else 0)
  }

  function GetLocal(K: Constants, o: CloneOptions): Local {
    DecodeLocal(K, o.local)
  }

  function SetLocal(K: Constants, o: CloneOptions, l: Local): (r: CloneOptions)
    requires K.Valid()
    ensures GetLocal(K, r) == l
    ensures r.(local := o.local) == o
  {
    LocalRoundTrip(K, l);
    o.(local := EncodeLocal(K, l))
  }

  /** `checkoutBranch`: nil for a NULL pointer or for bytes that are not UTF-8. */
  function GetCheckoutBranch(T: StringCodec, o: CloneOptions): (r: Option<string>)
    ensures o.checkoutBranch == None ==> r == None
  {
    match o.checkoutBranch
    case None => None
    case Some(bytes) => T.decode(bytes)
  }

  /**
   The setter stores the C form of a non-nil name and ignores nil: once a
   branch is set it cannot be unset through this property.
   */
  function SetCheckoutBranch(T: StringCodec, o: CloneOptions, name: Option<string>): (r: CloneOptions)
    ensures name == None ==> r == o
    ensures name.Some? && T.RoundTrips(name.value) ==> GetCheckoutBranch(T, r) == name
    ensures r.(checkoutBranch := o.checkoutBranch) == o
  {
    match name
    case None => o
    case Some(s) => o.(checkoutBranch := Some(T.encode(s)))
  }

  /** Assigning nil after a name leaves the name in place. */
  lemma CheckoutBranchCannotBeCleared(T: StringCodec, o: CloneOptions, name: string)
    requires T.RoundTrips(name)
    ensures GetCheckoutBranch(T, SetCheckoutBranch(T, SetCheckoutBranch(T, o, Some(name)), None)) == Some(name)
  {
  }
}

=== FILE: commits.dfy ===
/**
 `Commit`: how the wrapper turns libgit2's answers into `tree`, `parents`
 and `isDescendent(of:)`. The lookups and the graph search are libgit2's;
 their outcomes are inputs.
 */
module Commits {
  import opened Native
  import opened Errors
  import opened Objects

  /**
   `isDescendent(of:)`: `git_graph_descendant_of` answers 0 for no, 1 for yes,
   and anything else is thrown as an `Error` carrying that code.
   */
  function IsDescendent(code: int32, message: Option<string>): (r: Result<bool>)
    ensures r == Ok(false) <==> code == 0
    ensures r == Ok(true) <==> code == 1
    ensures r.Err? ==> r.error == ErrorFor(code, message)
  {
    match code
    case 0 => Ok(false)
    case 1 => Ok(true)
    case _ => Err(ErrorFor(code, message))
  }

  /**
   `git_graph_descendant_of` answering 1 or 0 reads back as the boolean, and
   any other answer is thrown as the very error `wrap` would throw for it.
   */
  lemma IsDescendentMatchesWrap(b: bool, code: int32, message: Option<string>)
    ensures IsDescendent(if b then 1 else 0, message) == Ok(b)
    ensures code != 0 && code != 1 ==> IsDescendent(code, message) == Err(Wrap(code, message).error)
  {
  }

  /**
   `Repository.lookup(_:)`: `try wrap { git_object_lookup(…) }`, then nil
   when no object came back; `found` is what the native call produced.
   */
  function Lookup(code: int32, message: Option<string>, found: Option<Object>): (r: Result<Option<Object>>)
    ensures r.Ok? <==> code == 0
    ensures r.Ok? ==> r.value == found
    ensures r.Err? ==> r.error == ErrorFor(code, message)
  {
    Then(Wrap(code, message), found)
  }

  /** `try?`: a thrown error and a nil result both become nil. */
  function Flatten<T>(lookup: Result<Option<T>>): (r: Option<T>)
    ensures r == None <==> lookup.Err? || lookup.value == None
    ensures r.Some? ==> lookup == Ok(r)
  {
    match lookup
    case Err(_) => None
    case Ok(o) => o
  }

  /**
   `tree`: `try? owner.lookup(id)` of the commit's tree id, nil when the
   lookup throws and what it found otherwise.
   */
  function Tree(code: int32, message: Option<string>, found: Option<Object>): (r: Option<Object>)
    ensures code != 0 ==> r == None
    ensures code == 0 ==> r == found
  {
    Flatten(Lookup(code, message, found))
  }

  /**
   `try?` undoes the lifting of a value into a successful lookup and forgets
   the error of a failed one, so `tree` does not depend on the message.
   */
  lemma FlattenForgetsErrors<T>(x: Option<T>, e: GitError, code: int32, m: Option<string>, n: Option<string>, found: Option<Object>)
    ensures Flatten(Ok(x)) == x
    ensures Flatten<T>(Err(e)) == None
    ensures Tree(code, m, found) == Tree(code, n, found)
  {
  }

  /** `try? owner.lookup(id) as? Commit`: the lookup succeeded and produced a `Commit`. */
  function AsCommit(lookup: Result<Option<Object>>): (r: Option<Object>)
    ensures r.Some? ==> r.value.cls == CommitClass && lookup == Ok(r)
    ensures r == None <==> Flatten(lookup) == None || Flatten(lookup).value.cls != CommitClass
  {
    match Flatten(lookup)
    case Some(o) => if o.cls == CommitClass then Some(o) else None
    case None => None
  }

  /**
   The parents `parents` keeps among the first `n` parent indices, given the
   outcome of looking up each index's id.
   */
  function Kept(lookup: nat -> Result<Option<Object>>, n: nat): seq<Object> {
    if n == 0 then []
    else Kept(lookup, n - 1) + (match AsCommit(lookup(n - 1)) case Some(c) => [c] case None => [])
  }

  /** The parent indices whose lookup `parents` keeps, in increasing order. */
  function KeptIndices(lookup: nat -> Result<Option<Object>>, n: nat): seq<nat> {
    if n == 0 then []
    else KeptIndices(lookup, n - 1) + (if AsCommit(lookup(n - 1)).Some? then [n - 1] else [])
  }

  /**
   `parents`: visits indices `0..<parentcount` in order, appending each
   parent whose lookup produces a `Commit` and skipping the rest.
   */
  method Parents(parentCount: nat, lookup: nat -> Result<Option<Object>>) returns (parents: seq<Object>)
    ensures parents == Kept(lookup, parentCount)
    ensures |parents| <= parentCount
    ensures forall j :: 0 <= j < |parents| ==> parents[j].cls == CommitClass
  {
    parents := [];
    var n := 0;
    while n < parentCount
      invariant n <= parentCount
      invariant parents == Kept(lookup, n)
      invariant |parents| <= n
      invariant forall j :: 0 <= j < |parents| ==> parents[j].cls == CommitClass
    {
      var commit := AsCommit(lookup(n));
      if commit.Some? {
        parents := parents + [commit.value];
      }
      n := n + 1;
    }
  }

  /**
   The kept parents are an order-preserving subsequence of the lookups: the
   j-th kept parent is what the lookup at the j-th kept index produced, and
   the kept indices increase and stay below `n`.
   */
  lemma {:induction false} KeptIsOrderedSubsequence(lookup: nat -> Result<Option<Object>>, n: nat)
    ensures |KeptIndices(lookup, n)| == |Kept(lookup, n)|
    ensures forall j :: 0 <= j < |Kept(lookup, n)| ==>
              KeptIndices(lookup, n)[j] < n && AsCommit(lookup(KeptIndices(lookup, n)[j])) == Some(Kept(lookup, n)[j])
    ensures forall i, j :: 0 <= i < j < |KeptIndices(lookup, n)| ==>
              KeptIndices(lookup, n)[i] < KeptIndices(lookup, n)[j]
  {
    if n > 0 {
      KeptIsOrderedSubsequence(lookup, n - 1);
    }
  }

  /** When every lookup produces a commit, `parents` has `parentcount` entries. */
  lemma {:induction false} AllParentsKept(lookup: nat -> Result<Option<Object>>, n: nat)
    requires forall i :: 0 <= i < n ==> AsCommit(lookup(i)).Some?
    ensures |Kept(lookup, n)| == n
    ensures forall i :: 0 <= i < n ==> Kept(lookup, n)[i] == AsCommit(lookup(i)).value
  {
    if n > 0 {
      AllParentsKept(lookup, n - 1);
    }
  }

  /** `Commit`'s `class var type` is COMMIT. */
  lemma CommitTypeTag(K: Constants)
    requires K.Valid()
    ensures ClassType(K, CommitClass) == K.commit
    ensures TypeOf(K, Some(K.commit)) == Some(CommitClass)
  {
  }
}

=== FILE: errors.dfy ===
/**
 `Error`, `attempt(throwing:)` and `result(of:)`: the boundary where a libgit2
 return code becomes either a normal return or a thrown `Error`.

 A native call is modelled as a transition of the native library's state
 `S` that also yields an `Int32` return code; `giterr_last()` is a reading
 of that state. Every `wrap { … }` in the wrapper is modelled as `Attempt`.
 */
module Errors {
  import opened Native

  /** `Error`: the return code widened to `Int`, and the message, if any. */
  datatype GitError = GitError(code: int, message: Option<string>)

  /** How a call that may throw ended. */
  datatype Outcome = Returned | Threw(error: GitError)

  /** Swift's `Result<Void, Error>`. */
  datatype VoidResult = Success | Failure(error: GitError)

  /** A value, or the `Error` thrown instead of returning it. */
  datatype Result<+T> = Ok(value: T) | Err(error: GitError)

  /**
   `Error(code:)`, whose message defaults to the library's last error message.
   `Int(code)` widens an `Int32`, so it never traps and loses nothing.
   */
  function ErrorFor(code: int32, lastMessage: Option<string>): (e: GitError)
    ensures -0x8000_0000 <= e.code < 0x8000_0000
    ensures e.code as int32 == code
    ensures e.message == lastMessage
  {
    GitError(code as int, lastMessage)
  }

  /** Distinct codes make distinct errors: the code can be read back from the error. */
  lemma ErrorForInjective(a: int32, b: int32, m: Option<string>, n: Option<string>)
    ensures ErrorFor(a, m) == ErrorFor(b, n) <==> a == b && m == n
  {
    if ErrorFor(a, m) == ErrorFor(b, n) {
      assert ErrorFor(a, m).code as int32 == a;
    }
  }

  /**
   `attempt(throwing: call)`: runs the native call once, from state `s`, and
   throws an `Error` carrying its code unless the code is 0. The message is
   the library's last error after the call.
   */
  function Attempt<S>(call: S -> (S, int32), lastMessage: S -> Option<string>, s: S): (r: (S, Outcome))
    ensures r.0 == call(s).0
    ensures r.1.Returned? <==> call(s).1 == 0
    ensures r.1.Threw? ==> r.1.error.code == call(s).1 as int && r.1.error.message == lastMessage(r.0)
  {
    var (s', code) := call(s);
    if code == 0 then (s', Returned) else (s', Threw(ErrorFor(code, lastMessage(s'))))
  }

  /**
   `wrap { call }` at a point where only the call's answer matters: `Attempt`
   of a call that answers `code` and leaves `lastMessage` as the library's
   last error.
   */
  function Wrap(code: int32, lastMessage: Option<string>): (r: Outcome)
    ensures r.Returned? <==> code == 0
    ensures r.Threw? ==> r.error == ErrorFor(code, lastMessage)
  {
    Attempt((u: ()) => (u, code), (u: ()) => lastMessage, ()).1
  }

  /** `try wrap { call }` followed by `return value`: the value, or the error thrown. */
  function Then<T>(o: Outcome, value: T): (r: Result<T>)
    ensures r.Ok? <==> o.Returned?
    ensures r.Ok? ==> r.value == value
    ensures r.Err? ==> o == Threw(r.error)
  {
    match o
    case Returned => Ok(value)
    case Threw(e) => Err(e)
  }

  /** `result(of: call)`: the same call, its throw caught into `.failure`. */
  function ResultOf<S>(call: S -> (S, int32), lastMessage: S -> Option<string>, s: S): (r: (S, VoidResult))
    ensures r.0 == call(s).0
    ensures r.1.Success? <==> call(s).1 == 0
    ensures r.1.Failure? ==> r.1.error.code == call(s).1 as int
  {
    var (s', outcome) := Attempt(call, lastMessage, s);
    match outcome
    case Returned => (s', Success)
    case Threw(e) => (s', Failure(e))
  }

  /** `result(of:)` succeeds exactly when `attempt` returns, and fails with the error it throws. */
  lemma ResultOfMatchesAttempt<S>(call: S -> (S, int32), lastMessage: S -> Option<string>, s: S)
    ensures ResultOf(call, lastMessage, s).1.Success? <==> Attempt(call, lastMessage, s).1.Returned?
    ensures Attempt(call, lastMessage, s).1.Threw?
            ==> ResultOf(call, lastMessage, s).1 == Failure(Attempt(call, lastMessage, s).1.error)
  {
  }

  /**
   `attempt` runs its call once: with a call that counts its own invocations,
   the count goes up by exactly one, whatever the code.
   */
  lemma AttemptCallsOnce(code: int32, n: int)
    ensures var counting := (k: int) => (k + 1, code);
            Attempt(counting, (k: int) => None, n).0 == n + 1
  {
  }
}

=== FILE: heads.dfy ===
/**
 `Repository.Head` and the `Repository` members that produce handles:
 `head`, `branch(named:)` and `index`.

 `Head` is declared twice, nested in `Repository` and in an extension, and
 the two copies disagree on `commit` for an attached head. Both are modelled.
 */
module Heads {
  import opened Native
  import opened Errors
  import opened Objects

  datatype Head<B, C> = Attached(branch: B) | Detached(commit: C)

  // ---------------------------------------------------------------------------
  // The accessors (both copies agree on these)

  /** `attached`. */
  predicate IsAttached<B, C>(h: Head<B, C>) {
    match h
    case Attached(_) => true
    case Detached(_) => false
  }

  /** `detached`: the negation of `attached`. */
  predicate IsDetached<B, C>(h: Head<B, C>) {
    !IsAttached(h)
  }

  /** `branch`: the held branch when attached, nil when detached. */
  function BranchOf<B, C>(h: Head<B, C>): (r: Option<B>)
    ensures r.Some? <==> IsAttached(h)
    ensures r.Some? ==> h == Attached(r.value)
  {
    match h
    case Attached(b) => Some(b)
    case Detached(_) => None
  }

  /** Exactly one of `attached` and `detached` holds. */
  lemma AttachedDetachedComplement<B, C>(h: Head<B, C>)
    ensures IsAttached(h) != IsDetached(h)
    ensures IsAttached(h) <==> h.Attached?
  {
  }

  // ---------------------------------------------------------------------------
  // `commit`, in each copy

  /**
   `commit` in the extension: the held commit when detached, and the
   branch's own `commit` (its target looked up, or nil) when attached.
   */
  function CommitOf<B, C>(h: Head<B, C>, branchCommit: B -> Option<C>): (r: Option<C>)
    ensures h.Detached? ==> r == Some(h.commit)
    ensures h.Attached? ==> r == branchCommit(h.branch)
  {
    match h
    case Attached(b) => branchCommit(b)
    case Detached(c) => Some(c)
  }

  /** `commit` in the copy nested in `Repository`: nil when attached. */
  function CommitOfNested<B, C>(h: Head<B, C>): (r: Option<C>)
    ensures r.Some? <==> IsDetached(h)
    ensures r.Some? ==> h == Detached(r.value)
  {
    match h
    case Attached(_) => None
    case Detached(c) => Some(c)
  }

  /**
   In the nested copy a head is determined by its `branch` and `commit`:
   exactly one is set, and it rebuilds the head.
   */
  lemma NestedAccessorsDetermineHead<B, C>(h: Head<B, C>)
    ensures BranchOf(h).Some? != CommitOfNested(h).Some?
    ensures h == if BranchOf(h).Some? then Attached(BranchOf(h).value) else Detached(CommitOfNested(h).value)
  {
  }

  /**
   The copies agree on a detached head, and on an attached head exactly when
   the branch has no commit.
   */
  lemma CommitCopiesAgreement<B, C>(h: Head<B, C>, branchCommit: B -> Option<C>)
    ensures h.Detached? ==> CommitOf(h, branchCommit) == CommitOfNested(h)
    ensures h.Attached? ==> (CommitOf(h, branchCommit) == CommitOfNested(h) <==> branchCommit(h.branch) == None)
  {
  }

  // ---------------------------------------------------------------------------
  // Handles

  /**
   What a native handle points at: a reference (with the id it resolves to,
   if any) or an object.
   */
  datatype Pointer = Reference(resolves: Option<ObjectId>) | Obj(target: Object)

  /** `Branch(pointer)` and `Commit(pointer)`: wrapper classes around a native pointer. */
  datatype BranchHandle = BranchHandle(pointer: Pointer)
  datatype CommitHandle = CommitHandle(pointer: Pointer)

  /** A `Commit` whose pointer really is a commit object. */
  predicate WellFormedCommit(c: CommitHandle) {
    c.pointer.Obj? && c.pointer.target.cls == CommitClass
  }

  // ---------------------------------------------------------------------------
  // head

  /**
   `head` as written: nil when `git_repository_head` fails; otherwise the
   reference it returns, wrapped as a `Commit` when
   `git_repository_head_detached` is nonzero and as a `Branch` otherwise.
   The detached case runs `Object.init`'s `assert` that the pointer's native
   type is COMMIT on a reference pointer; a debug build traps there, and a
   release build, modelled here, skips the check.
   */
  function HeadAsWritten(code: int32, detached: int32, ref: Pointer): (r: Option<Head<BranchHandle, CommitHandle>>)
    requires ref.Reference?
    ensures r.None? <==> code != 0
    ensures r.Some? ==> (r.value.Detached? <==> detached != 0)
    ensures r.Some? && r.value.Attached? ==> r.value.branch == BranchHandle(ref)
  {
    if Wrap(code, None).Threw? then None
    else if detached != 0 then Some(Detached(CommitHandle(ref)))
    else Some(Attached(BranchHandle(ref)))
  }

  /** A detached head as written holds a `Commit` whose pointer is a reference. */
  lemma DetachedHeadAsWrittenIsNotACommit(ref: Pointer)
    requires ref.Reference?
    ensures var h := HeadAsWritten(0, 1, ref);
            h.Some? && h.value.Detached? && !WellFormedCommit(h.value.commit)
  {
  }

  /**
   `head` as evidently intended: a detached head holds the commit the
   reference peels to (`peeled`, the outcome of peeling it to a commit);
   a failed peel, like a failed lookup of the head, gives nil.
   */
  function HeadOf(code: int32, detached: int32, ref: Pointer, peeled: Result<Object>)
    : (r: Option<Head<BranchHandle, CommitHandle>>)
    requires ref.Reference?
    ensures r.None? <==> code != 0 || (detached != 0 && (peeled.Err? || peeled.value.cls != CommitClass))
    ensures r.Some? ==> (r.value.Detached? <==> detached != 0)
    ensures r.Some? && r.value.Detached? ==> WellFormedCommit(r.value.commit) && r.value.commit.pointer == Obj(peeled.value)
    ensures r.Some? && r.value.Attached? ==> r.value.branch == BranchHandle(ref)
  {
    if Wrap(code, None).Threw? then None
    else if detached != 0 then
      match peeled
      case Ok(o) => if o.cls == CommitClass then Some(Detached(CommitHandle(Obj(o)))) else None
      case Err(_) => None
    else Some(Attached(BranchHandle(ref)))
  }

  /** The corrected `head` agrees with the one as written on failures and attached heads. */
  lemma HeadAgreesWhenAttached(code: int32, ref: Pointer, peeled: Result<Object>)
    requires ref.Reference?
    ensures HeadOf(code, 0, ref, peeled) == HeadAsWritten(code, 0, ref)
  {
  }

  // ---------------------------------------------------------------------------
  // branch(named:) and index

  /**
   `branch(named:)`: throws when `git_reference_lookup` fails; otherwise the
   reference as a `Branch` when it is a local or a remote-tracking branch,
   and nil for any other reference.
   */
  function BranchNamed(code: int32, message: Option<string>, ref: Pointer, isBranch: int32, isRemote: int32)
    : (r: Result<Option<BranchHandle>>)
    ensures r.Err? <==> code != 0
    ensures r.Err? ==> r.error == ErrorFor(code, message)
    ensures r == Ok(None) <==> code == 0 && isBranch == 0 && isRemote == 0
    ensures r.Ok? && r.value.Some? ==> r.value.value == BranchHandle(ref)
  {
    match Wrap(code, message)
    case Threw(e) => Err(e)
    case Returned => if isBranch != 0 || isRemote != 0 then Ok(Some(BranchHandle(ref))) else Ok(None)
  }

  /**
   Looking up the branch HEAD is attached to gives the handle `head` holds,
   and a lookup that throws does so with the error `wrap` throws.
   */
  lemma BranchNamedMatchesHead(code: int32, message: Option<string>, ref: Pointer, isRemote: int32, peeled: Result<Object>)
    requires ref.Reference?
    ensures var h := HeadOf(0, 0, ref, peeled);
            h.Some? && BranchNamed(0, message, ref, 1, isRemote) == Ok(BranchOf(h.value))
    ensures code != 0 ==> BranchNamed(code, message, ref, 1, isRemote) == Err(Wrap(code, message).error)
  {
  }

  /** `index`: nil when `git_repository_index` fails, the index handle it produced otherwise. */
  function IndexOf<P>(code: int32, pointer: P): (r: Option<P>)
    ensures r.None? <==> code != 0
    ensures r.Some? ==> r.value == pointer
  {
    if Wrap(code, None).Threw? then None else Some(pointer)
  }

  /** `index` is nil exactly when `result(of:)` of the same call is a failure. */
  lemma IndexOfMatchesResultOf<P>(code: int32, message: Option<string>, pointer: P)
    ensures IndexOf(code, pointer).None?
            <==> ResultOf((u: ()) => (u, code), (u: ()) => message, ()).1.Failure?
  {
  }
}

=== FILE: index.dfy ===
/**
 `Index`: the `Stage` codec, `Index.Entry` equality, ordering and hashing,
 the collection subscripts, the `Entries` cursor and `reload(force:)`.

 The index's contents are libgit2's; an index is modelled by the entries it
 holds in memory and the stamp of the on-disk file they were last read from.
 `git_index_read` follows the hard/soft contract of `reload`'s documentation.
 */
module Indexes {
  import opened Native
  import opened Errors
  import Objects

  // ---------------------------------------------------------------------------
  // Stage

  datatype Stage = Normal | Ancestor | Ours | Theirs

  /**
   The `git_index_stage_t` constants. Their values live in a C header the
   wrapper does not show; the lemmas hold for any four distinct values.
   */
  datatype Constants = Constants(normal: int, ancestor: int, ours: int, theirs: int)
  {
    predicate Valid() {
      Distinct4(normal, ancestor, ours, theirs)
    }
  }

  /** The values of libgit2's index.h, one admissible choice. */
  const LIBGIT2: Constants := Constants(0, 1, 2, 3)

  lemma LibGit2Valid()
    ensures LIBGIT2.Valid()
  {
  }

  /** `Stage(rawValue:)`: NORMAL and every unknown value decode to `.normal`. */
  function DecodeStage(K: Constants, raw: int): (s: Stage)
    ensures s == Normal <==> raw != K.ancestor && raw != K.ours && raw != K.theirs
    ensures s == Ancestor <==> raw == K.ancestor
    ensures K.Valid() ==> (s == Ours <==> raw == K.ours)
    ensures K.Valid() ==> (s == Theirs <==> raw == K.theirs)
  {
    if raw == K.ancestor then Ancestor
    else if raw == K.ours then Ours
    else if raw == K.theirs then Theirs
    else Normal
  }

  /** `Stage.rawValue`. */
  function EncodeStage(K: Constants, s: Stage): (r: int)
    ensures r in {K.normal, K.ancestor, K.ours, K.theirs}
    ensures K.Valid() ==> (r == K.normal <==> s == Normal)
    ensures s == Ancestor ==> r == K.ancestor
    ensures s == Ours ==> r == K.ours
    ensures s == Theirs ==> r == K.theirs
  {
    match s
    case Normal => K.normal
    case Ancestor => K.ancestor
    case Ours => K.ours
    case Theirs => K.theirs
  }

  lemma StageRoundTrip(K: Constants, s: Stage)
    requires K.Valid()
    ensures DecodeStage(K, EncodeStage(K, s)) == s
  {
  }

  /** Distinct stages are stored as distinct values. */
  lemma StageEncodingInjective(K: Constants, s: Stage, t: Stage)
    requires K.Valid()
    requires EncodeStage(K, s) == EncodeStage(K, t)
    ensures s == t
  {
    StageRoundTrip(K, s);
    StageRoundTrip(K, t);
  }

  // ---------------------------------------------------------------------------
  // Entry

  /**
   The `git_index_entry` fields the wrapper reads. `path` is the entry's path
   as a Swift string; times are whole seconds; `stage` is the raw stage value.
   */
  datatype Entry = Entry(
    path: string, id: Objects.ObjectId, fileSize: int, ctime: int, mtime: int, uid: uint32, stage: int)

  /** Lexicographic order on strings, character by character (a proper prefix comes first). */
  predicate StringLess(a: string, b: string)
    decreases |a|
  {
    |b| > 0 && (|a| == 0 || a[0] < b[0] || (a[0] == b[0] && StringLess(a[1..], b[1..])))
  }

  lemma {:induction false} StringLessIrreflexive(a: string)
    ensures !StringLess(a, a)
    decreases |a|
  {
    if |a| > 0 {
      StringLessIrreflexive(a[1..]);
    }
  }

  lemma {:induction false} StringLessTransitive(a: string, b: string, c: string)
    requires StringLess(a, b) && StringLess(b, c)
    ensures StringLess(a, c)
    decreases |a|
  {
    if |a| > 0 && a[0] == b[0] && b[0] == c[0] {
      StringLessTransitive(a[1..], b[1..], c[1..]);
    }
  }

  /** Any two different strings are ordered one way or the other. */
  lemma {:induction false} StringLessTotal(a: string, b: string)
    requires a != b
    ensures StringLess(a, b) || StringLess(b, a)
    decreases |a|
  {
    if |a| > 0 && |b| > 0 && a[0] == b[0] {
      assert a == [a[0]] + a[1..] && b == [b[0]] + b[1..];
      StringLessTotal(a[1..], b[1..]);
    }
  }

  /** `Entry ==`: `git_oid_cmp` of the two blob ids is zero. */
  predicate EntryEqual(a: Entry, b: Entry) {
    Objects.IdEqual(a.id, b.id)
  }

  /**
   Swift compares strings by their Unicode normalization form C, scalar by
   scalar. `N` is that normalization, which is not part of this model.
   */
  type Normalization = string -> string

  /** `Entry <`: the normalized paths are in order. */
  predicate EntryLess(N: Normalization, a: Entry, b: Entry) {
    StringLess(N(a.path), N(b.path))
  }

  /**
   Equality looks at the blob id and nothing else: entries are equal iff
   their ids are, whatever their paths, stages, sizes, times and owners.
   */
  lemma EntryEqualIsIdEquality(a: Entry, b: Entry)
    ensures EntryEqual(a, b) <==> a.id == b.id
    ensures EntryEqual(a, b) <==> EntryEqual(a.(path := b.path, stage := b.stage, uid := b.uid), b)
  {
    Objects.IdEqualIsIdentity(a.id, b.id);
  }

  /**
   Ordering looks at the path and nothing else, and is a strict order that
   is total on paths whose normalized forms differ.
   */
  lemma EntryLessIsStrictOrder(N: Normalization, a: Entry, b: Entry, c: Entry)
    ensures !EntryLess(N, a, a)
    ensures EntryLess(N, a, b) && EntryLess(N, b, c) ==> EntryLess(N, a, c)
    ensures N(a.path) != N(b.path) ==> EntryLess(N, a, b) || EntryLess(N, b, a)
    ensures EntryLess(N, a, b) <==> EntryLess(N, a.(id := c.id, stage := c.stage), b)
  {
    StringLessIrreflexive(N(a.path));
    if EntryLess(N, a, b) && EntryLess(N, b, c) {
      StringLessTransitive(N(a.path), N(b.path), N(c.path));
    }
    if N(a.path) != N(b.path) {
      StringLessTotal(N(a.path), N(b.path));
    }
  }

  /**
   Two entries for files with the same contents at different paths are
   `==` and yet one is `<` the other.
   */
  lemma EqualityAndOrderDisagree(N: Normalization, a: Entry, p: string, q: string)
    requires StringLess(N(p), N(q))
    ensures var x := a.(path := p);
            var y := a.(path := q);
            EntryEqual(x, y) && EntryLess(N, x, y)
  {
    Objects.IdEqualIsIdentity(a.id, a.id);
  }

  /** What `Entry.hash(into:)` feeds the hasher as written: the entry's `uid`. */
  function EntryHashInputAsWritten(e: Entry): uint32 {
    e.uid
  }

  /**
   Two entries for the same blob, owned by different users, are equal but
   feed different values to the hasher.
   */
  lemma EntryHashAsWrittenBreaksHashable(a: Entry)
    ensures var b := a.(uid := if a.uid == 0 then 1 else 0);
            EntryEqual(a, b) && EntryHashInputAsWritten(a) != EntryHashInputAsWritten(b)
  {
    Objects.IdEqualIsIdentity(a.id, a.id);
  }

  /** The hash as evidently intended: the blob id that `==` compares. */
  function EntryHashInput(e: Entry): seq<byte> {
    Objects.IdHashInput(e.id)
  }

  /** With the corrected hash, equal entries hash alike. */
  lemma EntryHashConsistent(a: Entry, b: Entry)
    ensures EntryEqual(a, b) ==> EntryHashInput(a) == EntryHashInput(b)
  {
    Objects.IdEqualIsIdentity(a.id, b.id);
  }

  // ---------------------------------------------------------------------------
  // The index and reload(force:)

  /** The on-disk index file: a stamp that changes whenever it changes, and its entries. */
  datatype OnDisk = OnDisk(stamp: int, entries: seq<Entry>)

  /** An index in memory: its entries, and the stamp of the file they were last read from. */
  datatype IndexState = IndexState(entries: seq<Entry>, loaded: Option<int>)

  /** The index a hard read leaves behind: the file's entries, or nothing without a file. */
  function Loaded(disk: Option<OnDisk>): IndexState {
    match disk
    case None => IndexState([], None)
    case Some(d) => IndexState(d.entries, Some(d.stamp))
  }

  /**
   `git_index_read(index, force)` as `reload`'s documentation describes it,
   failing with `failure` when that is nonzero. Nothing is documented about
   the index a failed read leaves behind, so that index, `failed`, is an
   input. A hard read always replaces the entries with the file's, or clears
   them when there is no file; a soft read replaces them only when the
   file's stamp differs from the last one loaded.
   */
  function GitIndexRead(disk: Option<OnDisk>, failure: int32, failed: IndexState, force: int32): IndexState -> (IndexState, int32) {
    (s: IndexState) =>
      if failure != 0 then (failed, failure)
      else if force != 0 then (Loaded(disk), 0)
      else if disk.Some? && s.loaded != Some(disk.value.stamp) then (Loaded(disk), 0)
      else (s, 0)
  }

  /** `reload(force:)`: the read above, through `attempt`, with the flag passed as 1 or 0. */
  function Reload(force: bool, disk: Option<OnDisk>, failure: int32, failed: IndexState,
                  lastMessage: IndexState -> Option<string>, s: IndexState)
    : (r: (IndexState, Outcome))
    ensures r.1.Returned? <==> failure == 0
    ensures r.1.Threw? ==> r.0 == failed && r.1.error == ErrorFor(failure, lastMessage(failed))
    ensures failure == 0 && force ==> r.0.entries == (if disk.Some? then disk.value.entries else [])
    ensures failure == 0 && !force && disk.Some? && s.loaded != Some(disk.value.stamp)
            ==> r.0.entries == disk.value.entries
    ensures failure == 0 && !force && (disk.None? || s.loaded == Some(disk.value.stamp)) ==> r.0 == s
  {
    Attempt(GitIndexRead(disk, failure, failed, if force then 1 else 0), lastMessage, s)
  }

  /**
   After a successful reload of either kind, a soft reload from the same file
   changes nothing, and a hard one gives the same index as a hard one did.
   */
  lemma ReloadSettles(force: bool, disk: Option<OnDisk>, failed: IndexState, lastMessage: IndexState -> Option<string>, s: IndexState)
    ensures var t := Reload(force, disk, 0, failed, lastMessage, s).0;
            (disk.Some? ==> t.loaded == Some(disk.value.stamp))
            && Reload(false, disk, 0, failed, lastMessage, t).0 == t
            && Reload(true, disk, 0, failed, lastMessage, t).0 == Reload(true, disk, 0, failed, lastMessage, s).0
  {
  }

  /** A soft reload keeps in-memory entries when the file has not changed since it was read. */
  lemma SoftReloadKeepsUnchangedIndex(d: OnDisk, entries: seq<Entry>, failed: IndexState, lastMessage: IndexState -> Option<string>)
    ensures var s := IndexState(entries, Some(d.stamp));
            Reload(false, Some(d), 0, failed, lastMessage, s) == (s, Returned)
  {
  }

  // ---------------------------------------------------------------------------
  // RandomAccessCollection

  /** `startIndex`. */
  const START_INDEX: int := 0

  /** `endIndex`: `git_index_entrycount`. */
  function EndIndex(s: IndexState): int {
    |s.entries|
  }

  /**
   `subscript(_: Int)`: the precondition is that the position lies in
   `startIndex..<endIndex`, and `git_index_get_byindex` then finds the entry.
   */
  function EntryAtPosition(s: IndexState, i: int): (e: Entry)
    requires START_INDEX <= i < EndIndex(s)
    ensures e == s.entries[i - START_INDEX]
    ensures e in s.entries
  {
    s.entries[i]
  }

  /** Reading every position from `startIndex` to `endIndex` in turn gives the index's entries. */
  method AllPositions(s: IndexState) returns (r: seq<Entry>)
    ensures r == s.entries
  {
    r := [];
    var i := START_INDEX;
    while i < EndIndex(s)
      invariant START_INDEX <= i <= EndIndex(s)
      invariant r == s.entries[..i]
    {
      r := r + [EntryAtPosition(s, i)];
      i := i + 1;
    }
  }

  /**
   The key `git_index_get_bypath` compares paths by: the path itself, or
   its case-folded form when the index ignores case (`core.ignorecase`).
   */
  type PathKey = string -> string

  /**
   `subscript(_: String, stage:)`: `git_index_get_bypath` finds the first
   entry whose path has the same key at the stage, which defaults to `.normal`.
   */
  function EntryAtPath(K: Constants, key: PathKey, s: IndexState, path: string, stage: Stage := Normal)
    : (r: Option<Entry>)
    ensures r.None? <==> forall i :: 0 <= i < |s.entries| ==> !Matches(K, key, s.entries[i], path, stage)
    ensures r.Some? ==> r.value in s.entries && Matches(K, key, r.value, path, stage)
    decreases |s.entries|
  {
    if |s.entries| == 0 then None
    else if Matches(K, key, s.entries[0], path, stage) then Some(s.entries[0])
    else
      var r := EntryAtPath(K, key, IndexState(s.entries[1..], s.loaded), path, stage);
      assert forall i :: 1 <= i < |s.entries| ==> s.entries[i] == s.entries[1..][i - 1];
      r
  }

  /** An entry is at `path`, up to the key, and at `stage`. */
  predicate Matches(K: Constants, key: PathKey, e: Entry, path: string, stage: Stage) {
    key(e.path) == key(path) && e.stage == EncodeStage(K, stage)
  }

  /**
   In an index that respects case the lookup is exact: nil iff no entry has
   exactly that path at the stage, and otherwise an entry with that path.
   */
  lemma CaseSensitiveLookupIsExact(K: Constants, s: IndexState, path: string, stage: Stage)
    ensures var r := EntryAtPath(K, p => p, s, path, stage);
            (r.None? <==> forall e :: e in s.entries ==> e.path != path || e.stage != EncodeStage(K, stage))
            && (r.Some? ==> r.value.path == path)
  {
    var r := EntryAtPath(K, p => p, s, path, stage);
    if r.None? {
      forall e | e in s.entries
        ensures e.path != path || e.stage != EncodeStage(K, stage)
      {
        var i :| 0 <= i < |s.entries| && s.entries[i] == e;
        assert !Matches(K, p => p, s.entries[i], path, stage);
      }
    }
  }

  /** Without a stage, the path subscript looks at the normal stage only. */
  lemma PathSubscriptDefaultsToNormal(K: Constants, key: PathKey, s: IndexState, path: string)
    requires K.Valid()
    ensures EntryAtPath(K, key, s, path) == EntryAtPath(K, key, s, path, Normal)
    ensures EntryAtPath(K, key, s, path).Some? ==> DecodeStage(K, EntryAtPath(K, key, s, path).value.stage) == Normal
  {
  }

  // ---------------------------------------------------------------------------
  // ---------------------------------------------------------------------------
  // Entries

  /**
   An `Entries` iterator: the index it came from (`None` once that weak
   reference is gone), the entries libgit2's iterator snapshot holds, how
   many of them it has produced, and the position, if any, at which
   `git_index_iterator_next` fails with an error other than ITEROVER.
   */
  datatype Cursor = Cursor(owner: Option<IndexState>, snapshot: seq<Entry>, position: nat, failsAt: Option<nat>)

  /** Where iteration stops: the end of the snapshot, or the failing position if that comes first. */
  function Stop(c: Cursor): (n: nat)
    ensures n <= |c.snapshot|
  {
    match c.failsAt
    case Some(p) => if p < |c.snapshot| then p else |c.snapshot|
    case None => |c.snapshot|
  }

  /** The entries a cursor has yet to produce. */
  function Remaining(c: Cursor): seq<Entry> {
    if c.position <= Stop(c) then c.snapshot[c.position..Stop(c)] else []
  }

  /** `underestimatedCount`: 0 once the owner is gone, its entry count otherwise. */
  function UnderestimatedCount(c: Cursor): (n: nat)
    ensures c.owner.None? ==> n == 0
    ensures c.owner.Some? ==> n == EndIndex(c.owner.value)
  {
    match c.owner
    case None => 0
    case Some(s) => |s.entries|
  }

  /**
   For a fresh iterator over an index nobody changed, and with no native
   failure, the count is exactly the number of entries it yields.
   */
  lemma UnderestimatedCountOfFreshCursor(s: IndexState)
    ensures var c := Cursor(Some(s), s.entries, 0, None);
            UnderestimatedCount(c) == |Remaining(c)|
  {
  }

  /**
   `next()`: `git_index_iterator_next` yields the entry at the cursor with
   code 0; at the end it answers ITEROVER, and where it fails it answers an
   error code. Any nonzero code becomes nil and the cursor stays put.
   */
  function Next(c: Cursor): (r: (Cursor, Option<Entry>))
    ensures r.1.None? <==> Remaining(c) == []
    ensures r.1.None? ==> r.0 == c
    ensures r.1.Some? ==> [r.1.value] + Remaining(r.0) == Remaining(c)
    ensures r.0.owner == c.owner && r.0.snapshot == c.snapshot && r.0.failsAt == c.failsAt
  {
    if c.position < Stop(c) then
      var c' := c.(position := c.position + 1);
      assert c.snapshot[c.position..Stop(c)] == [c.snapshot[c.position]] + c'.snapshot[c'.position..Stop(c')];
      (c', Some(c.snapshot[c.position]))
    else (c, None)
  }

  /**
   Once `next()` has returned nil, at the end or at a failure, it keeps
   returning nil. At a failure this rests on the cursor's failure position
   being fixed: a failure is assumed to recur when `next()` calls the native
   iterator again.
   */
  lemma NextStaysExhausted(c: Cursor)
    requires Next(c).1.None?
    ensures Next(Next(c).0).1.None?
    ensures c.position < |c.snapshot| ==> c.failsAt == Some(c.position) || c.failsAt.value < c.position
  {
  }

  /**
   Iterating a cursor with `next()` until it returns nil: the entries from
   the cursor's position up to the end of the snapshot or the first failure.
   The cursor is left exhausted, still owned by the same index.
   */
  method Drain(c: Cursor) returns (r: seq<Entry>, last: Cursor)
    ensures r == Remaining(c)
    ensures c.position <= Stop(c) ==> r == c.snapshot[c.position..Stop(c)]
    ensures Next(last).1.None? && Remaining(last) == []
    ensures last.owner == c.owner
  {
    r := [];
    last := c;
    var step := Next(last);
    while step.1.Some?
      invariant step == Next(last)
      invariant r + Remaining(last) == Remaining(c)
      invariant last.owner == c.owner
      decreases |Remaining(last)|
    {
      r := r + [step.1.value];
      last := step.0;
      step := Next(last);
    }
  }

  /**
   `entries`: an `AnySequence` over a new `Entries` iterator, or over an
   empty collection (`None`) when `git_index_iterator_new` fails with `code`.
   */
  function EntriesOf(s: IndexState, code: int32, failsAt: Option<nat>): (it: Option<Cursor>)
    ensures it.None? <==> code != 0
    ensures it.Some? ==> it.value.snapshot == s.entries && it.value.failsAt == failsAt && it.value.position == 0
    ensures it.Some? ==> Remaining(it.value) == s.entries[..Stop(it.value)] && UnderestimatedCount(it.value) == |s.entries|
  {
    if Wrap(code, None).Threw? then None else Some(Cursor(Some(s), s.entries, 0, failsAt))
  }

  /**
   A `for … in` over that sequence: the entries it yields, and the sequence
   afterwards. `Entries` is a class that is its own iterator, so the loop
   consumes the one cursor the sequence wraps.
   */
  method Traverse(it: Option<Cursor>) returns (r: seq<Entry>, after: Option<Cursor>)
    ensures it.None? ==> r == [] && after == None
    ensures it.Some? ==> r == Remaining(it.value) && after.Some? && Remaining(after.value) == []
    ensures it.Some? ==> after.value.owner == it.value.owner
  {
    match it {
      case None =>
        r, after := [], None;
      case Some(c) =>
        var last;
        r, last := Drain(c);
        after := Some(last);
    }
  }

  /** The sequence's `underestimatedCount`: 0 for the empty collection, the iterator's otherwise. */
  function SequenceCount(it: Option<Cursor>): (n: nat)
    ensures it.None? ==> n == 0
    ensures it.Some? ==> n == UnderestimatedCount(it.value)
  {
    match it
    case None => 0
    case Some(c) => UnderestimatedCount(c)
  }

  /**
   Traversing `entries` twice: the first pass yields every entry in order,
   up to the first native failure of `next()`, or nothing when the iterator
   cannot be created; the second pass yields nothing, because the iterator
   is single-pass, while `underestimatedCount` still reports every entry.
   */
  method Entries(s: IndexState, code: int32, failsAt: Option<nat>) returns (first: seq<Entry>, second: seq<Entry>, count: nat)
    ensures code != 0 ==> first == []
    ensures code == 0 && failsAt.None? ==> first == s.entries
    ensures code == 0 && failsAt.Some? && failsAt.value < |s.entries| ==> first == s.entries[..failsAt.value]
    ensures code == 0 && failsAt.Some? && failsAt.value >= |s.entries| ==> first == s.entries
    ensures second == []
    ensures count == if code == 0 then |s.entries| else 0
  {
    var it := EntriesOf(s, code, failsAt);
    first, it := Traverse(it);
    second, it := Traverse(it);
    count := SequenceCount(it);
  }
}

=== FILE: native.dfy ===
/**
 Types shared by the whole model: the C integer and byte types the wrapper
 exchanges with libgit2, and an Option type standing for Swift's `Optional`.
 */
module Native {

  /** A C `int` / Swift `Int32`, the type of every libgit2 return code. */
  newtype int32 = x: int | -0x8000_0000 <= x < 0x8000_0000

  /** A C `unsigned int` / Swift `UInt32`. */
  newtype uint32 = x: int | 0 <= x < 0x1_0000_0000

  /** A C `unsigned char` / Swift `UInt8`. */
  newtype byte = x: int | 0 <= x < 0x100

  /** Swift's `Optional`: `None` is `nil`. */
  datatype Option<+T> = None | Some(value: T)

  /** The bytes of a NUL-terminated C string, without the terminator. */
  type CString = seq<byte>

  /**
   Swift's conversions between `String` and C strings, which are not part of
   this model: `decode` is `String(validatingUTF8:)` (nil for bytes that are
   not UTF-8) and `encode` is what `withCString` hands to C.
   */
  datatype StringCodec = StringCodec(decode: CString -> Option<string>, encode: string -> CString)
  {
    /** The string survives the trip to C and back. */
    predicate RoundTrips(s: string) {
      decode(encode(s)) == Some(s)
    }
  }

  /** Pairwise distinct values, the only thing the wrapper relies on about a C enumeration. */
  predicate Distinct3<T(==)>(a: T, b: T, c: T) {
    a != b && a != c && b != c
  }

  predicate Distinct4<T(==)>(a: T, b: T, c: T, d: T) {
    Distinct3(a, b, c) && a != d && b != d && c != d
  }

  predicate Distinct5<T(==)>(a: T, b: T, c: T, d: T, e: T) {
    Distinct4(a, b, c, d) && a != e && b != e && c != e && d != e
  }
}

=== FILE: objects.dfy ===
/**
 `Object` and `Object.ID`: the class-to-type-tag table, `type(of:)`, the
 constructor's assertion, identity-based equality and hashing, and the
 preconditions of the `ID` initialisers.
 */
module Objects {
  import opened Native
  import opened Errors

  /** The Swift classes an object handle can have. */
  datatype ObjectClass = ObjectBase | CommitClass | TreeClass | BlobClass | TagAnnotation

  /**
   The `git_object_t` constants. Their values live in a C header the wrapper
   does not show; the lemmas hold for any five distinct values.
   */
  datatype Constants = Constants(any: int, commit: int, tree: int, blob: int, tag: int)
  {
    predicate Valid() {
      Distinct5(any, commit, tree, blob, tag)
    }
  }

  /** The values of libgit2's types.h, one admissible choice. */
  const LIBGIT2: Constants := Constants(-2, 1, 2, 3, 4)

  lemma LibGit2Valid()
    ensures LIBGIT2.Valid()
  {
  }

  /** `class var type` of each class (`Object` itself answers ANY). */
  function ClassType(K: Constants, c: ObjectClass): int {
    match c
    case ObjectBase => K.any
    case CommitClass => K.commit
    case TreeClass => K.tree
    case BlobClass => K.blob
    case TagAnnotation => K.tag
  }

  /** `Object.type(of:)`: nil for nil and for every other tag (the delta kinds among them). */
  function TypeOf(K: Constants, value: Option<int>): (r: Option<ObjectClass>)
    ensures r == None <==> value == None || value.value !in {K.any, K.commit, K.tree, K.blob, K.tag}
    ensures r == Some(ObjectBase) <==> value == Some(K.any)
    ensures K.Valid() ==> (r == Some(CommitClass) <==> value == Some(K.commit))
    ensures K.Valid() ==> (r == Some(TreeClass) <==> value == Some(K.tree))
    ensures K.Valid() ==> (r == Some(BlobClass) <==> value == Some(K.blob))
    ensures K.Valid() ==> (r == Some(TagAnnotation) <==> value == Some(K.tag))
  {
    match value
    case None => None
    case Some(t) =>
      if t == K.any then Some(ObjectBase)
      else if t == K.commit then Some(CommitClass)
      else if t == K.tree then Some(TreeClass)
      else if t == K.blob then Some(BlobClass)
      else if t == K.tag then Some(TagAnnotation)
      else None
  }

  /** `type(of:)` recovers every class from its own type tag. */
  lemma TypeOfClassType(K: Constants, c: ObjectClass)
    requires K.Valid()
    ensures TypeOf(K, Some(ClassType(K, c))) == Some(c)
  {
  }

  /** A tag `type(of:)` accepts is the type tag of the class it returns. */
  lemma ClassTypeOfTypeOf(K: Constants, t: int)
    requires K.Valid()
    requires TypeOf(K, Some(t)).Some?
    ensures ClassType(K, TypeOf(K, Some(t)).value) == t
  {
  }

  // ---------------------------------------------------------------------------
  // Object.ID

  /** `GIT_OID_RAWSZ`: a SHA-1 object id is 20 bytes. */
  const RAW_SIZE := 20

  /** `GIT_OID_HEXSZ`: its hexadecimal form is 40 characters. */
  const HEX_SIZE := 40

  /** A `git_oid`. */
  type ObjectId = id: seq<byte> | |id| == RAW_SIZE
    witness seq(RAW_SIZE, _ => 0)

  /** `ID ==`: `git_oid_cmp` is zero exactly for equal bytes. */
  predicate IdEqual(a: ObjectId, b: ObjectId) {
    forall i :: 0 <= i < RAW_SIZE ==> a[i] == b[i]
  }

  /** What `ID.hash(into:)` feeds the hasher: the id's bytes. */
  function IdHashInput(a: ObjectId): seq<byte> { a }

  /** `ID ==` is identity, so it agrees with hashing. */
  lemma IdEqualIsIdentity(a: ObjectId, b: ObjectId)
    ensures IdEqual(a, b) <==> a == b
    ensures IdEqual(a, b) ==> IdHashInput(a) == IdHashInput(b)
  {
    if IdEqual(a, b) {
      assert a == b;
    }
  }

  /**
   `String.lengthOfBytes(using: .ascii)`: the length of an all-ASCII string,
   and 0 (Foundation's answer when the string cannot be converted) otherwise.
   */
  function AsciiLength(s: string): (n: nat)
    ensures n <= |s|
    ensures (forall i :: 0 <= i < |s| ==> s[i] < 128 as char) ==> n == |s|
    ensures (exists i :: 0 <= i < |s| && s[i] >= 128 as char) ==> n == 0
  {
    if forall i :: 0 <= i < |s| ==> s[i] < 128 as char then |s| else 0
  }

  /**
   `ID(string:)`: its precondition bounds the ASCII length, then the parse
   is `attempt { git_oid_fromstr(…) }`, whose code and output are inputs here.
   */
  function IdFromString(s: string, code: int32, parsed: ObjectId, message: Option<string>): (r: Result<ObjectId>)
    requires AsciiLength(s) <= HEX_SIZE
    ensures r.Ok? <==> code == 0
    ensures r.Ok? ==> r.value == parsed
    ensures r.Err? ==> r.error == ErrorFor(code, message)
  {
    Then(Wrap(code, message), parsed)
  }

  /**
   Every string holding a non-ASCII character passes the precondition,
   whatever its length; for instance `n` copies of 'é', for every `n`.
   */
  lemma NonAsciiStringPassesLengthCheck(s: string, n: nat)
    requires exists i :: 0 <= i < |s| && s[i] >= 128 as char
    ensures AsciiLength(s) <= HEX_SIZE
    ensures n > 0 ==> AsciiLength(seq(n, _ => 'é')) <= HEX_SIZE
  {
    if n > 0 {
      var t: string := seq(n, _ => 'é');
      assert t[0] >= 128 as char;
    }
  }

  /**
   `ID(bytes:)` as written: it allows up to 40 bytes, but `git_oid_fromraw`
   copies exactly 20 from the array's storage. `beyond` is whatever memory
   follows a shorter array; `code` is what `git_oid_fromraw` answers, which
   `attempt` turns into a throw.
   */
  function IdFromBytesAsWritten(bytes: seq<byte>, beyond: seq<byte>, code: int32, message: Option<string>)
    : (r: Result<ObjectId>)
    requires |bytes| <= HEX_SIZE
    requires |bytes| + |beyond| >= RAW_SIZE
    ensures r.Ok? <==> code == 0
    ensures r.Err? ==> r.error == ErrorFor(code, message)
    ensures r.Ok? ==> forall i :: 0 <= i < RAW_SIZE ==> r.value[i] == if i < |bytes| then bytes[i] else beyond[i - |bytes|]
    ensures r.Ok? && |bytes| >= RAW_SIZE ==> r.value == bytes[..RAW_SIZE]
  {
    Then(Wrap(code, message), (bytes + beyond)[..RAW_SIZE])
  }

  /** Two 40-byte arrays that differ after byte 20 give the same id. */
  lemma IdFromBytesAsWrittenDropsBytes(message: Option<string>)
    ensures var a := seq(HEX_SIZE, _ => 0 as byte);
            var b := a[RAW_SIZE := 1];
            a != b && IdFromBytesAsWritten(a, [], 0, message).Ok?
            && IdFromBytesAsWritten(a, [], 0, message) == IdFromBytesAsWritten(b, [], 0, message)
  {
    var a := seq(HEX_SIZE, _ => 0 as byte);
    var b := a[RAW_SIZE := 1];
    assert a[RAW_SIZE] != b[RAW_SIZE];
    assert a[..RAW_SIZE] == b[..RAW_SIZE];
  }

  /** `ID(bytes:)` as evidently intended: exactly the 20 raw bytes of an id, or the error `attempt` throws. */
  function IdFromBytes(bytes: seq<byte>, code: int32, message: Option<string>): (r: Result<ObjectId>)
    requires |bytes| == RAW_SIZE
    ensures r.Ok? <==> code == 0
    ensures r.Ok? ==> IdHashInput(r.value) == bytes
    ensures r.Err? ==> r.error == ErrorFor(code, message)
  {
    Then(Wrap(code, message), bytes)
  }

  /** Every id is built from its own bytes, and only from them. */
  lemma IdFromBytesRoundTrip(id: ObjectId, bytes: seq<byte>, message: Option<string>)
    requires |bytes| == RAW_SIZE
    ensures IdFromBytes(IdHashInput(id), 0, message) == Ok(id)
    ensures IdFromBytes(bytes, 0, message) == Ok(id) <==> bytes == IdHashInput(id)
  {
  }

  // ---------------------------------------------------------------------------
  // Object

  /** An object handle: its class, the id and type tag libgit2 reports for it. */
  datatype Object = Object(cls: ObjectClass, id: ObjectId, nativeType: int)

  /** The assertion in `init`: only the base class accepts any native type. */
  predicate Constructible(K: Constants, cls: ObjectClass, nativeType: int) {
    cls == ObjectBase || nativeType == ClassType(K, cls)
  }

  /** `required init(_:)` with its assertion as the precondition. */
  function Construct(K: Constants, cls: ObjectClass, id: ObjectId, nativeType: int): Object
    requires Constructible(K, cls, nativeType)
  {
    Object(cls, id, nativeType)
  }

  /** A constructed handle of a subclass has the native type `type(of:)` maps to that subclass. */
  lemma ConstructedTypeMatches(K: Constants, cls: ObjectClass, id: ObjectId, nativeType: int)
    requires K.Valid()
    requires Constructible(K, cls, nativeType)
    ensures var o := Construct(K, cls, id, nativeType);
            o.cls != ObjectBase ==> TypeOf(K, Some(o.nativeType)) == Some(o.cls)
  {
  }

  /** `Object ==`: the ids are equal, whatever the classes. */
  predicate ObjectEqual(a: Object, b: Object) {
    IdEqual(a.id, b.id)
  }

  /** What `Object.hash(into:)` feeds the hasher: the id, hashed as an id. */
  function ObjectHashInput(a: Object): seq<byte> {
    IdHashInput(a.id)
  }

  /** Object equality is an equivalence and equal objects hash alike. */
  lemma ObjectEqualityConsistent(a: Object, b: Object, c: Object)
    ensures ObjectEqual(a, a)
    ensures ObjectEqual(a, b) ==> ObjectEqual(b, a)
    ensures ObjectEqual(a, b) && ObjectEqual(b, c) ==> ObjectEqual(a, c)
    ensures ObjectEqual(a, b) ==> ObjectHashInput(a) == ObjectHashInput(b)
  {
    IdEqualIsIdentity(a.id, b.id);
    IdEqualIsIdentity(b.id, c.id);
  }
}

=== FILE: remote.dfy ===
/**
 `Remote.Fetch.Configuration`: the `git_fetch_options` fields the wrapper
 reads or writes, and the `Optional<TagFollowing>` codec.
 */
module Remote {
  import opened Native

  datatype TagFollowing = Default | Automatic | All

  /**
   The `git_fetch_prune_t` and `git_remote_autotag_option_t` constants. Their
   values live in a C header the wrapper does not show; the lemmas hold for
   any values distinct within each enumeration.
   */
  datatype Constants = Constants(
    pruneUnspecified: int, prune: int, noPrune: int,
    tagsUnspecified: int, tagsAuto: int, tagsNone: int, tagsAll: int)
  {
    predicate Valid() {
      Distinct3(pruneUnspecified, prune, noPrune)
      && Distinct4(tagsUnspecified, tagsAuto, tagsNone, tagsAll)
    }
  }

  /** The values of libgit2's remote.h, one admissible choice. */
  const LIBGIT2: Constants := Constants(0, 1, 2, 0, 1, 2, 3)

  lemma LibGit2Valid()
    ensures LIBGIT2.Valid()
  {
  }

  // ---------------------------------------------------------------------------
  // Optional<TagFollowing>

  /** `Optional<TagFollowing>(rawValue:)`: NONE and every unknown value decode to nil. */
  function DecodeTagFollowing(K: Constants, raw: int): (r: Option<TagFollowing>)
    ensures r == None <==> raw != K.tagsUnspecified && raw != K.tagsAuto && raw != K.tagsAll
    ensures r == Some(Default) <==> raw == K.tagsUnspecified
    ensures K.Valid() ==> (r == Some(Automatic) <==> raw == K.tagsAuto)
    ensures K.Valid() ==> (r == Some(All) <==> raw == K.tagsAll)
  {
    if raw == K.tagsUnspecified then Some(Default)
    else if raw == K.tagsAuto then Some(Automatic)
    else if raw == K.tagsAll then Some(All)
    else None
  }

  /** `Optional<TagFollowing>.rawValue`: nil encodes as NONE. */
  function EncodeTagFollowing(K: Constants, t: Option<TagFollowing>): (r: int)
    ensures r in {K.tagsUnspecified, K.tagsAuto, K.tagsAll, K.tagsNone}
    ensures K.Valid() ==> (r == K.tagsNone <==> t == None)
    ensures t == Some(Default) ==> r == K.tagsUnspecified
    ensures t == Some(Automatic) ==> r == K.tagsAuto
    ensures t == Some(All) ==> r == K.tagsAll
  {
    match t
    case Some(Default) => K.tagsUnspecified
    case Some(Automatic) => K.tagsAuto
    case Some(All) => K.tagsAll
    case None => K.tagsNone
  }

  lemma TagFollowingRoundTrip(K: Constants, t: Option<TagFollowing>)
    requires K.Valid()
    ensures DecodeTagFollowing(K, EncodeTagFollowing(K, t)) == t
  {
  }

  /** Encoding is injective, so distinct settings store distinct values. */
  lemma TagFollowingEncodingInjective(K: Constants, t: Option<TagFollowing>, u: Option<TagFollowing>)
    requires K.Valid()
    requires EncodeTagFollowing(K, t) == EncodeTagFollowing(K, u)
    ensures t == u
  {
    TagFollowingRoundTrip(K, t);
    TagFollowingRoundTrip(K, u);
  }

  // ---------------------------------------------------------------------------
  // Fetch.Configuration

  /**
   The fields of `git_fetch_options` the wrapper touches: `update_fetchhead`,
   `prune`, `download_tags` and the `custom_headers` string array.
   */
  datatype FetchOptions = FetchOptions(
    updateFetchHead: int32, prune: int, downloadTags: int, customHeaders: seq<CString>)

  /** `updateFetchHead`: any nonzero value reads as true. */
  predicate GetUpdateFetchHead(o: FetchOptions) { o.updateFetchHead != 0 }

  /** The setter stores 1 or 0. */
  function SetUpdateFetchHead(o: FetchOptions, v: bool): (r: FetchOptions)
    ensures GetUpdateFetchHead(r) == v
    ensures r.updateFetchHead == 0 || r.updateFetchHead == 1
    ensures r.(updateFetchHead := o.updateFetchHead) == o
  {
    o.(updateFetchHead := if v then 1 else 0)
  }

  /** `prune`: PRUNE is true, NO_PRUNE false, anything else (UNSPECIFIED included) nil. */
  function GetPrune(K: Constants, o: FetchOptions): (r: Option<bool>)
    ensures r == None <==> o.prune != K.prune && o.prune != K.noPrune
    ensures r == Some(true) <==> o.prune == K.prune
    ensures r == Some(false) <==> o.prune == K.noPrune && o.prune != K.prune
  {
    if o.prune == K.prune then Some(true)
    else if o.prune == K.noPrune then Some(false)
    else None
  }

  /** The setter stores PRUNE, NO_PRUNE, or UNSPECIFIED for nil. */
  function SetPrune(K: Constants, o: FetchOptions, v: Option<bool>): (r: FetchOptions)
    requires K.Valid()
    ensures GetPrune(K, r) == v
    ensures v == Some(true) ==> r.prune == K.prune
    ensures v == Some(false) ==> r.prune == K.noPrune
    ensures v == None ==> r.prune == K.pruneUnspecified
    ensures r.(prune := o.prune) == o
  {
    o.(prune := match v
                case Some(true) => K.prune
                case Some(false) => K.noPrune
                case None => K.pruneUnspecified)
  }

  function GetTagFollowing(K: Constants, o: FetchOptions): Option<TagFollowing> {
    DecodeTagFollowing(K, o.downloadTags)
  }

  function SetTagFollowing(K: Constants, o: FetchOptions, t: Option<TagFollowing>): (r: FetchOptions)
    requires K.Valid()
    ensures GetTagFollowing(K, r) == t
    ensures r.(downloadTags := o.downloadTags) == o
  {
    TagFollowingRoundTrip(K, t);
    o.(downloadTags := EncodeTagFollowing(K, t))
  }

  /**
   `customHeaders`: one `String(validatingUTF8:)!` per string of the array,
   in array order; the force-unwrap traps on a string that is not UTF-8.
   */
  method CustomHeaders(T: StringCodec, o: FetchOptions) returns (r: seq<string>)
    requires forall i :: 0 <= i < |o.customHeaders| ==> T.decode(o.customHeaders[i]).Some?
    ensures |r| == |o.customHeaders|
    ensures forall i :: 0 <= i < |r| ==> T.decode(o.customHeaders[i]) == Some(r[i])
  {
    r := [];
    var n := 0;
    while n < |o.customHeaders|
      invariant n <= |o.customHeaders|
      invariant |r| == n
      invariant forall i :: 0 <= i < n ==> T.decode(o.customHeaders[i]) == Some(r[i])
    {
      r := r + [T.decode(o.customHeaders[n]).value];
      n := n + 1;
    }
  }

  /**
   `withGitStringArray`, the encoder in the array extension: one C string per
   element, in order.
   */
  function ToStringArray(T: StringCodec, strings: seq<string>): (a: seq<CString>)
    ensures |a| == |strings|
    ensures forall i :: 0 <= i < |a| ==> a[i] == T.encode(strings[i])
  {
    seq(|strings|, i requires 0 <= i < |strings| => T.encode(strings[i]))
  }

  /** Headers stored through the array encoder read back unchanged. */
  method CustomHeadersRoundTrip(T: StringCodec, o: FetchOptions, headers: seq<string>)
    returns (r: seq<string>)
    requires forall i :: 0 <= i < |headers| ==> T.RoundTrips(headers[i])
    ensures r == headers
  {
    r := CustomHeaders(T, o.(customHeaders := ToStringArray(T, headers)));
  }
}

=== FILE: signatures.dfy ===
/**
 `Signature`: the minute offset stored at creation, the `timeZone` read
 back from it, and equality and hashing.

 Times are whole seconds since 1970 (the `Date` and `TimeInterval`
 conversions are left out), and a time zone is its offset from GMT in
 seconds. Foundation's `TimeZone(secondsFromGMT:)` gives nil beyond
 eighteen hours either way.
 */
module Signatures {
  import opened Native
  import opened Errors

  /** The largest offset, in seconds, `TimeZone(secondsFromGMT:)` accepts either side of GMT. */
  const MAX_ZONE_SECONDS := 18 * 3600

  const INT32_MIN := -0x8000_0000
  const INT32_MAX := 0x7FFF_FFFF

  /** A fixed-offset `TimeZone`. */
  datatype TimeZone = TimeZone(secondsFromGMT: int)

  /** The `git_signature` fields: name and email, `when.time` in seconds and `when.offset` in minutes. */
  datatype Signature = Signature(name: string, email: string, time: int, offset: int32)

  /** Swift's `/` on integers: the quotient truncated toward zero. */
  function Quotient(a: int, b: int): (q: int)
    requires b > 0
    ensures a >= 0 ==> q * b <= a < (q + 1) * b
    ensures a < 0 ==> (q - 1) * b < a <= q * b
  {
    if a >= 0 then a / b else -((-a) / b)
  }

  /** `Int32(...)` traps unless the value fits. */
  predicate FitsInt32(n: int) {
    INT32_MIN <= n <= INT32_MAX
  }

  /**
   The offset `init` stores: `Int32(secondsFromGMT / 60)`, the number of
   whole minutes in the zone's offset, dropping any leftover seconds.
   */
  function Offset(secondsFromGMT: int): (m: int32)
    requires FitsInt32(Quotient(secondsFromGMT, 60))
    ensures 0 <= secondsFromGMT ==> 0 <= 60 * (m as int) <= secondsFromGMT < 60 * (m as int) + 60
    ensures secondsFromGMT < 0 ==> 60 * (m as int) - 60 < secondsFromGMT <= 60 * (m as int) <= 0
  {
    Quotient(secondsFromGMT, 60) as int32
  }

  /** `timeZone`: `TimeZone(secondsFromGMT: 60 * offset)`, nil when that is out of range. */
  function TimeZoneOf(offset: int32): (z: Option<TimeZone>)
    ensures z.Some? <==> -MAX_ZONE_SECONDS <= 60 * (offset as int) <= MAX_ZONE_SECONDS
    ensures z.Some? ==> z.value.secondsFromGMT == 60 * (offset as int)
  {
    var seconds := 60 * (offset as int);
    if -MAX_ZONE_SECONDS <= seconds <= MAX_ZONE_SECONDS then Some(TimeZone(seconds)) else None
  }

  /**
   A zone Foundation can represent reads back from the stored offset exactly
   when its offset is a whole number of minutes.
   */
  lemma TimeZoneRoundTrip(secondsFromGMT: int)
    requires -MAX_ZONE_SECONDS <= secondsFromGMT <= MAX_ZONE_SECONDS
    ensures FitsInt32(Quotient(secondsFromGMT, 60))
    ensures TimeZoneOf(Offset(secondsFromGMT)) == Some(TimeZone(secondsFromGMT)) <==> secondsFromGMT % 60 == 0
  {
    var m := Offset(secondsFromGMT);
    assert -MAX_ZONE_SECONDS <= 60 * (m as int) <= MAX_ZONE_SECONDS;
    if secondsFromGMT % 60 == 0 {
      assert 60 * (m as int) == secondsFromGMT;
    }
  }

  // ---------------------------------------------------------------------------
  // Creation

  /** libgit2's `git__isspace`: space, tab, line feed, vertical tab, form feed and carriage return. */
  predicate IsSpace(c: char) {
    c == ' ' || c == '\t' || c == '\n' || c == 11 as char || c == 12 as char || c == '\r'
  }

  /** Neither end of the string is whitespace. */
  predicate Unpadded(s: string) {
    |s| == 0 || (!IsSpace(s[0]) && !IsSpace(s[|s| - 1]))
  }

  /** The end of the run of whitespace that starts at `i`. */
  function LeadingEnd(s: string, i: nat): (k: nat)
    requires i <= |s|
    ensures i <= k <= |s|
    ensures forall j :: i <= j < k ==> IsSpace(s[j])
    ensures k < |s| ==> !IsSpace(s[k])
    decreases |s| - i
  {
    if i < |s| && IsSpace(s[i]) then LeadingEnd(s, i + 1) else i
  }

  /** The start of the run of whitespace that ends at `j`, going back no further than `lo`. */
  function TrailingStart(s: string, lo: nat, j: nat): (m: nat)
    requires lo <= j <= |s|
    ensures lo <= m <= j
    ensures forall p :: m <= p < j ==> IsSpace(s[p])
    ensures m > lo ==> !IsSpace(s[m - 1])
    decreases j
  {
    if j > lo && IsSpace(s[j - 1]) then TrailingStart(s, lo, j - 1) else j
  }

  /** The position of the first NUL at or after `i`, or the end of the string. */
  function NulFrom(s: string, i: nat): (k: nat)
    requires i <= |s|
    ensures i <= k <= |s|
    ensures forall j :: i <= j < k ==> s[j] != '\0'
    ensures k < |s| ==> s[k] == '\0'
    decreases |s| - i
  {
    if i < |s| && s[i] != '\0' then NulFrom(s, i + 1) else i
  }

  /**
   What C sees of a Swift `String` passed as `const char *`: its UTF-8 bytes
   up to the first zero byte. In UTF-8 only U+0000 encodes to a zero byte,
   so that is the string up to its first NUL character.
   */
  function CStringOf(s: string): (c: string)
    ensures |c| <= |s| && c == s[..|c|]
    ensures '\0' !in c
    ensures |c| < |s| ==> s[|c|] == '\0'
  {
    var k := NulFrom(s, 0);
    assert forall j :: 0 <= j < k ==> s[..k][j] != '\0';
    s[..k]
  }

  /** A string without NUL reaches C whole, and one with a NUL does not. */
  lemma CStringWhole(s: string)
    ensures CStringOf(s) == s <==> '\0' !in s
  {
  }

  /** Where the trimmed string starts: after the leading whitespace. */
  function TrimStart(s: string): nat {
    LeadingEnd(s, 0)
  }

  /**
   `extract_trimmed`, what `git_signature_new` stores for a name or an
   email: the window of `s` from `TrimStart(s)` that drops the whitespace at
   both ends and keeps every other character.
   */
  function Trim(s: string): (r: string)
    ensures Unpadded(r)
    ensures TrimStart(s) + |r| <= |s| && r == s[TrimStart(s)..TrimStart(s) + |r|]
    ensures forall i :: 0 <= i < |s| && !(TrimStart(s) <= i < TrimStart(s) + |r|) ==> IsSpace(s[i])
  {
    var k := LeadingEnd(s, 0);
    s[k..TrailingStart(s, k, |s|)]
  }

  /** Trimming keeps an unpadded string whole, so trimming twice is trimming once. */
  lemma TrimKeepsUnpadded(s: string)
    ensures Unpadded(s) <==> Trim(s) == s
    ensures Trim(Trim(s)) == Trim(s)
  {
    var t := Trim(s);
    if Unpadded(s) && |s| > 0 {
      assert TrimStart(s) == 0;
      assert TrailingStart(s, 0, |s|) == |s|;
    }
    if |t| > 0 {
      assert TrimStart(t) == 0;
      assert TrailingStart(t, 0, |t|) == |t|;
    }
  }

  /**
   `init(name:email:time:timeZone:)`: `try wrap { git_signature_new(…) }`
   with the time in seconds and the zone's offset in minutes. The name and
   the email reach libgit2 as C strings, cut at their first NUL, and libgit2
   stores them trimmed; its other refusals (angle brackets, a name or email
   that trims to nothing) come back as the nonzero `code`.
   */
  function NewSignature(name: string, email: string, time: int, zone: TimeZone, code: int32, message: Option<string>)
    : (r: Result<Signature>)
    requires FitsInt32(Quotient(zone.secondsFromGMT, 60))
    ensures r.Ok? <==> code == 0
    ensures r.Err? ==> r.error == ErrorFor(code, message)
    ensures r.Ok? ==> r.value.name == Trim(CStringOf(name)) && r.value.email == Trim(CStringOf(email)) && r.value.time == time
    ensures r.Ok? && zone.secondsFromGMT % 60 == 0 && -MAX_ZONE_SECONDS <= zone.secondsFromGMT <= MAX_ZONE_SECONDS
            ==> TimeZoneOf(r.value.offset) == Some(zone)
  {
    var created := Signature(Trim(CStringOf(name)), Trim(CStringOf(email)), time, Offset(zone.secondsFromGMT));
    if -MAX_ZONE_SECONDS <= zone.secondsFromGMT <= MAX_ZONE_SECONDS then
      TimeZoneRoundTrip(zone.secondsFromGMT);
      Then(Wrap(code, message), created)
    else
      Then(Wrap(code, message), created)
  }

  /**
   A created signature reads back the name and email it was given exactly
   when neither has surrounding whitespace or a NUL: " Alice" comes back as
   "Alice", and "Al\0ice" as "Al".
   */
  lemma NewSignatureReadsBack(name: string, email: string, time: int, message: Option<string>)
    ensures var r := NewSignature(name, email, time, TimeZone(0), 0, message);
            r.Ok? && (r.value.name == name && r.value.email == email
                      <==> Unpadded(name) && Unpadded(email) && '\0' !in name && '\0' !in email)
    ensures NewSignature(" Alice", email, time, TimeZone(0), 0, message).value.name == "Alice"
    ensures NewSignature("Al\0ice", email, time, TimeZone(0), 0, message).value.name == "Al"
  {
    StoredWhole(name);
    StoredWhole(email);
    CStringWhole(" Alice");
    assert '\0' !in " Alice";
    TrimDropsLeadingSpace();
    CutAtNul();
  }

  /** A string is stored as given exactly when it has no NUL and no surrounding whitespace. */
  lemma StoredWhole(s: string)
    ensures Trim(CStringOf(s)) == s <==> Unpadded(s) && '\0' !in s
  {
    CStringWhole(s);
    TrimKeepsUnpadded(s);
    TrimKeepsUnpadded(CStringOf(s));
    if Trim(CStringOf(s)) == s {
      assert |CStringOf(s)| == |s|;
      assert CStringOf(s) == s;
    }
  }

  /** "Al\0ice" reaches C as "Al", which has no whitespace to trim. */
  lemma CutAtNul()
    ensures Trim(CStringOf("Al\0ice")) == "Al"
  {
    var s := "Al\0ice";
    assert s[0] != '\0' && s[1] != '\0' && s[2] == '\0';
    assert NulFrom(s, 2) == 2;
    assert CStringOf(s) == "Al";
    TrimKeepsUnpadded("Al");
  }

  /** Trimming " Alice" drops the one leading space and keeps the rest. */
  lemma TrimDropsLeadingSpace()
    ensures Trim(" Alice") == "Alice"
  {
    var padded := " Alice";
    assert IsSpace(padded[0]) && !IsSpace(padded[1]);
    assert LeadingEnd(padded, 1) == 1;
    assert TrimStart(padded) == 1;
    assert !IsSpace(padded[|padded| - 1]);
    assert TrailingStart(padded, 1, |padded|) == |padded|;
    assert padded[1..|padded|] == "Alice";
  }

  /** `Signature.default(for:)`: `try wrap { git_signature_default(…) }`, then the configured signature. */
  function DefaultSignature(code: int32, configured: Signature, message: Option<string>): (r: Result<Signature>)
    ensures r.Ok? <==> code == 0
    ensures r.Ok? ==> r.value == configured
    ensures r.Err? ==> r.error == ErrorFor(code, message)
  {
    Then(Wrap(code, message), configured)
  }

  // ---------------------------------------------------------------------------
  // Equatable and Hashable

  /** `==` as written: name, email, time and `timeZone` (an optional) are equal. */
  predicate SignatureEqualAsWritten(a: Signature, b: Signature) {
    a.name == b.name && a.email == b.email && a.time == b.time && TimeZoneOf(a.offset) == TimeZoneOf(b.offset)
  }

  /** What `hash(into:)` feeds the hasher: name, email, raw time and raw offset. */
  function HashInput(a: Signature): (string, string, int, int32) {
    (a.name, a.email, a.time, a.offset)
  }

  /** `==` as written is an equivalence relation. */
  lemma SignatureEqualAsWrittenIsEquivalence(a: Signature, b: Signature, c: Signature)
    ensures SignatureEqualAsWritten(a, a)
    ensures SignatureEqualAsWritten(a, b) ==> SignatureEqualAsWritten(b, a)
    ensures SignatureEqualAsWritten(a, b) && SignatureEqualAsWritten(b, c) ==> SignatureEqualAsWritten(a, c)
  {
  }

  /**
   Two signatures whose offsets are both beyond eighteen hours have a nil
   `timeZone` and are `==`, yet feed different offsets to the hasher.
   */
  lemma EqualSignaturesHashDifferently(name: string, email: string, time: int)
    ensures var a := Signature(name, email, time, 1081);
            var b := Signature(name, email, time, 1082);
            SignatureEqualAsWritten(a, b) && HashInput(a) != HashInput(b)
  {
  }

  /** `==` as evidently intended: the offset compared as stored, as the hash does. */
  predicate SignatureEqual(a: Signature, b: Signature) {
    a.name == b.name && a.email == b.email && a.time == b.time && a.offset == b.offset
  }

  /** With the corrected equality, equal signatures hash alike, and conversely. */
  lemma SignatureEqualMatchesHash(a: Signature, b: Signature)
    ensures SignatureEqual(a, b) <==> HashInput(a) == HashInput(b)
  {
  }

  /** The two equalities agree whenever either signature's `timeZone` is not nil. */
  lemma SignatureEqualAgreesInRange(a: Signature, b: Signature)
    requires TimeZoneOf(a.offset).Some? || TimeZoneOf(b.offset).Some?
    ensures SignatureEqual(a, b) <==> SignatureEqualAsWritten(a, b)
  {
    if SignatureEqualAsWritten(a, b) {
      assert 60 * (a.offset as int) == 60 * (b.offset as int);
    }
  }
}
